=== FILE: README.md ===
# Loan-position lifecycle of the collateral-loans backend

This project models the backend of a collateralised-loan service in Dafny.

A borrower opens a loan position by depositing collateral (WETH, WBTC or ETH) through a lending protocol adapter. The backend then does four things with it:
- it records the position and keeps a health factor for it, equal to collateral value × 0.80 / debt;
- it lists the positions that are at risk (health factor below 1.2) or liquidatable (below 1.0), worst first;
- it repays positions, after which they are final;
- it runs a liquidation bot, which reads every active position's health factor from the loan contract, decides whether a liquidation pays, submits it and records the outcome.

Beside the positions, the backend keeps per-user counters, a fee configuration (one origination fee and one repayment fee, each a percentage paid to a recipient address) and a cache of protocol rates.

The model follows the source file by file:

| module | file | source |
|---|---|---|
| `Common` | `common.dfy` | shared values: optional fields, outcomes of calls the model does not see, HTTP replies, the address and hash patterns, ASCII lower-casing |
| `Queries` | `queries.dfy` | the store's filter, sort and sum, stated once |
| `FeeServiceModel` | `fee_service.dfy` | `backend/src/models/FeeService.js` |
| `PositionModel` | `position.dfy` | `backend/src/models/Position.js` |
| `UserModel` | `user.dfy` | `backend/src/models/User.js` |
| `PositionServiceModel` | `position_service.dfy` | `backend/src/services/positionService.js` |
| `LiquidationBotModel` | `liquidation_bot.dfy` | `backend/src/services/liquidationBot.js` |
| `LoansControllerModel` | `loans_controller.dfy` | `backend/src/controllers/loansController.js` |
| `UserControllerModel` | `user_controller.dfy` | `backend/src/controllers/userController.js` |

Each part takes the form the source has:

- **Pure schema code** becomes datatypes and functions. This covers the records, the health-factor formula, the risk predicates and the two monitoring queries.
- **Users and the user collection** are classes whose methods update counters in place: `User` and `UserRegistry`.
- **The position collection** is a class, `PositionService`. Its fields are a sequence of records, where the id is the index, and the unique index on the transaction hash.
- **The liquidation bot** is a class that holds the running flag, the listener and timer flags, and its two settings. Its sweep is a loop over the collection, proved against the pure `Sweep`.
- **The opportunity cache** is a class. Its write-through is a loop proved against `UpsertAll`.

Modelling conventions:

- **Saving.** A mongoose `save()` is modelled by the predicate `SchemaValid`. It covers the required fields, the address pattern, the enums, the non-negative amounts and an LTV in [0, 1]. The schema's `lowercase: true` setters are applied wherever a field is assigned.
- **Numbers.** Money, amounts and ratios are exact `real`s.
- **Time.** Dates are integer milliseconds, and the clock is a parameter.
- **The chain.** Every answer from the chain (health factor, debt, bonus, gas price, gas estimate, receipt) is an input of type `Call<T>`: it either returned a value or threw with a message. A sweep reads the chain afresh for each record, so the answers are indexed by the record's slot as well as by the on-chain id. An earlier liquidation in the same sweep can therefore change what later records see.

Four behaviours of the source are kept as written:

- **Lost repay fields.** The repay handler of the loans controller (`backend/src/controllers/loansController.js:344-351`) assigns `repayTxHash`, `finalInterestPaid`, `serviceFeePaid` and `feeRecipient`. None of them is a schema field, so strict mode drops them, and `LoansControllerModel.RepayPosition` stores only `status` and `repaidAt`. That handler also never touches the user's counters and never sets `repaymentAmount`. A repayment through it therefore leaves `activePositions` unchanged and adds nothing to the platform's `totalRepaid`.
- **One on-chain id for every position.** `onChainId` is not a schema field either. `_derivePositionId` therefore always yields 0, and the bot reads every position from the chain as position 0 (`LiquidationBotModel.DerivePositionId`).
- **No status re-check.** `liquidatePosition` does not check the status again before it submits. A confirmed receipt overwrites whatever status the record holds (`LiquidationBotModel.LiquidateDoesNotRecheckStatus`).
- **Any status is refreshed.** `updateHealthFactor` refreshes a record whatever its status.

## Model

| member | source | states |
|---|---|---|
| Common.ToLower | backend/src/services/positionService.js:50-62 | `toLowerCase` keeps the length and maps each character by ASCII lower-casing (non-ASCII letters: see "## Left out") |
| Common.ToLowerIsLower | backend/src/models/Position.js:91-97 | a lower-cased value is unchanged by lower-casing it again, so a stored lower-cased field stays equal to its lower-cased form |
| Common.ToLowerKeepsHex | backend/src/controllers/userController.js:13-20 | a value that matches `^0x[a-fA-F0-9]{n}$` still matches after lower-casing, so a normalised address still passes the schema's validator |
| Queries.Select | backend/src/models/Position.js:208-210 | `find(filter)` returns exactly the records that satisfy the filter, never more than the collection holds |
| Queries.SelectMultiplicity | backend/src/services/positionService.js:107 | `find(filter)` returns each matching record exactly as often as the collection holds it |
| Queries.SelectMonotone | backend/src/services/positionService.js:305-306 | a stricter filter selects a sub-multiset, so it counts no more records |
| Queries.SortBy | backend/src/models/Position.js:211 | `.sort({key: 1})` yields the same multiset of records, ascending by the key |
| Queries.SortByKeepsMembers | backend/src/services/positionService.js:108 | sorting neither adds nor drops a record |
| Queries.SumNonNegative | backend/src/services/positionService.js:298-304 | a `$sum` of non-negative fields is non-negative |
| FeeServiceModel.MakeFee | backend/src/models/FeeService.js:10-30 | a record is accepted iff it has a name and a recipient address and its percentage (when given) is in [0, 100]; the accepted record carries the input's type, name, recipient and description, the given percentage (default 0) and the given `isActive` (default true) |
| FeeServiceModel.InsertFee | backend/src/models/FeeService.js:4-9 | a save succeeds iff the record is valid and its type is not yet taken; the unique index on the type is preserved |
| FeeServiceModel.AtMostOneRecordPerType | backend/src/models/FeeService.js:4-9 | with two fee types and a unique index, the collection holds at most two records |
| FeeServiceModel.FindActiveFee | backend/src/controllers/loansController.js:113 | `findOne({ type, isActive: true })` returns an active record of that type that is in the collection, and returns nothing iff there is none |
| FeeServiceModel.FindActiveFeeIsUnique | backend/src/controllers/loansController.js:335 | under the unique index, the lookup returns exactly the active record of that type |
| PositionModel.HealthFactor | backend/src/models/Position.js:190-194 | the health factor times the debt equals the collateral value times 0.80 |
| PositionModel.HealthFactorMonotone | backend/src/models/Position.js:190-194 | with a positive debt, more collateral value never lowers the health factor |
| PositionModel.HealthFactorBelowOne | backend/src/models/Position.js:190-204 | with a positive debt, the health factor is below 1.0 iff 80% of the collateral value is below the debt |
| PositionModel.LiquidatableIsAtRisk | backend/src/models/Position.js:197-204 | a liquidatable position (below 1.0) is at risk (below 1.2) |
| PositionModel.TotalDebt | backend/src/models/Position.js:184-187 | the total debt is the principal with no interest accrued, and it is non-negative for a valid record |
| PositionModel.FindAtRisk | backend/src/models/Position.js:207-212 | returns exactly the active records with health factor below 1.2, each as often as stored, ascending by health factor |
| PositionModel.FindLiquidatable | backend/src/models/Position.js:215-220 | returns exactly the active records with health factor below 1.0, each as often as stored, ascending by health factor |
| PositionModel.LiquidatableAmongAtRisk | backend/src/models/Position.js:207-220 | the liquidatable list is a sub-multiset of the at-risk list and no longer than it |
| PositionModel.WorstFirst | backend/src/models/Position.js:215-220 | when any active record is liquidatable, the list is non-empty and its head has the lowest health factor |
| PositionServiceModel.BuildPosition | backend/src/services/positionService.js:43-69 | the record is built iff every field it needs is present and each value, after lower-casing and the defaults, passes its validator (`ValidPayload`); a missing adapter or token address is a TypeError and any other failure a validation failure; a built record is active, passes validation, is lower-cased, carries the user, protocol, token, collateral, collateral value, principal, fee, net amount, APY and block number it was given, LTV 0.70 / network sepolia when those are absent, no repayment or liquidation fields, and health factor × principal = collateral value × 0.80 |
| PositionServiceModel.Stats | backend/src/services/positionService.js:286-316 | total is the collection's size and active the number of active records; totalBorrowed is the `$sum` of every borrowAmount and totalRepaid the `$sum` of repaymentAmount over repaid records; liquidatable ≤ at risk ≤ active ≤ total; the two risk counts equal the lengths of the two monitoring lists; over schema-valid records both sums are non-negative |
| PositionServiceModel.SumsNonNegative | backend/src/services/positionService.js:298-304 | over valid records, the total borrowed and the total repaid by repaid records are both non-negative |
| PositionServiceModel.CountRepayment | backend/src/services/positionService.js:204-207 | a registered user counts the repayment; for an unknown address no user changes |
| PositionServiceModel.QueryUser | backend/src/services/positionService.js:97-109 | exactly the records of that address that match the status and protocol filters that were given, each as often as stored, newest first |
| PositionServiceModel.PositionService.TxHashesUnique | backend/src/models/Position.js:91-97 | no two stored records share a transaction hash |
| PositionServiceModel.PositionService.Save | backend/src/models/Position.js:45-118 | `save()` stores the record iff it passes validation and changes no other record and not the hash index |
| PositionServiceModel.PositionService.Insert | backend/src/models/Position.js:91-97 | a new record is stored under the next id and indexed by its hash |
| PositionServiceModel.PositionService.CreatePosition | backend/src/services/positionService.js:11-87 | missing required fields: an error and nothing changes; a hash whose lower-cased form is stored: the stored record and nothing changes; otherwise the built record is appended and its user's counters are incremented, or on error nothing changes |
| PositionServiceModel.PositionService.UpdateUserStats | backend/src/services/positionService.js:261-280 | the user at the address (created with fresh counters if absent) has one more position, open and lifetime, and `borrowAmount` more borrowed; no other user changes |
| PositionServiceModel.PositionService.GetUserPositions | backend/src/services/positionService.js:95-119 | exactly the stored records of the lower-cased address that match the filters, each as often as stored, newest first |
| PositionServiceModel.PositionService.GetPositionById | backend/src/services/positionService.js:126-140 | the record with that id, or "not found" iff no record has it |
| PositionServiceModel.PositionService.UpdateHealthFactor | backend/src/services/positionService.js:148-174 | unknown id: not found and nothing changes; otherwise exactly that record gets the new collateral value and the health factor computed from it (a negative value fails validation) |
| PositionServiceModel.PositionService.RepayPosition | backend/src/services/positionService.js:182-217 | unknown id: not found; a record that is not active: not active; no hash: the `toLowerCase` TypeError; with nothing changed on these errors. Otherwise the record becomes repaid with the time, the lower-cased hash and the amount as given (absent when absent). A given amount below 0 fails the save with nothing changed. A given amount is counted on an existing user. With no amount and a registered user, the record is stored as repaid and the call then fails, with the user's counters unchanged. With no amount and no registered user, the call succeeds |
| PositionServiceModel.PositionService.GetPlatformStats | backend/src/services/positionService.js:286-322 | the result is `Stats` of the stored collection, so every count and sum is the aggregation's value; the counts nest, the two risk counts are the lengths of the two monitoring lists, and both sums are non-negative |
| UserModel.UpdatesKeepCountersValid | backend/src/models/User.js:76-95 | connecting, opening a position and repaying all keep 0 ≤ active ≤ total, non-negative sums and a positive connection count; a repayment never raises the active count |
| UserModel.User.constructor | backend/src/models/User.js:19-58 | a new user has every statistic at 0, one connection, and both connection times at creation |
| UserModel.User.RecordConnection | backend/src/models/User.js:76-80 | one more connection, the last-connected time is now, and no statistic changes |
| UserModel.User.IncrementPositions | backend/src/models/User.js:83-88 | total and active positions each rise by exactly 1 and the amount borrowed by `amount`; the counters stay valid |
| UserModel.User.RecordRepayment | backend/src/models/User.js:91-95 | active positions fall by 1 when positive and never below 0, `amount` is added to the amount repaid, and the total positions and amount borrowed are unchanged |
| UserModel.UserRegistry.Create | backend/src/controllers/userController.js:32 | registers exactly one new user, with fresh counters, under its address; the other users are unchanged |
| UserModel.UserRegistry.Connect | backend/src/controllers/userController.js:22-26 | only the user at that address gets one more connection |
| UserModel.UserRegistry.IncrementPositions | backend/src/services/positionService.js:263-272 | only the user at that address counts the new position |
| UserModel.UserRegistry.RecordRepayment | backend/src/services/positionService.js:204-207 | only the user at that address counts the repayment |
| LiquidationBotModel.MockPrice | backend/src/services/liquidationBot.js:173-177 | a positive price exists exactly for WETH and WBTC |
| LiquidationBotModel.DerivePositionId | backend/src/services/liquidationBot.js:283-288 | a stored record never carries `onChainId`, so the derived on-chain id is always 0 |
| LiquidationBotModel.HealthFactorFromChain | backend/src/services/liquidationBot.js:114-115 | the recorded health factor is the raw value scaled down by 1e18, and it is non-negative |
| LiquidationBotModel.IsProfitableLiquidation | backend/src/services/liquidationBot.js:165-212 | profitable iff every read succeeded, the token has a price and collateral + bonus − debt − gas cost is strictly above the minimum profit; "not profitable" on any failure |
| LiquidationBotModel.EthIsNeverProfitable | backend/src/services/liquidationBot.js:173-177 | ETH collateral is never judged profitable, because it has no price |
| LiquidationBotModel.ProfitMonotoneInCollateral | backend/src/services/liquidationBot.js:177-193 | with a bonus of at least −100%, more collateral keeps a profitable liquidation profitable |
| LiquidationBotModel.ProfitMonotoneInDebt | backend/src/services/liquidationBot.js:169-193 | less debt keeps a profitable liquidation profitable |
| LiquidationBotModel.ProfitExample | backend/src/services/liquidationBot.js:170-206 | 1 WETH, a 500 bps bonus, 2000 USDC of debt and free gas net 625 USD, which is profitable at the default minimum of 50 |
| LiquidationBotModel.GasLimit | backend/src/services/liquidationBot.js:226-227 | the gas limit is at least the estimate and is the floor of 1.2 × the estimate |
| LiquidationBotModel.Classify | backend/src/services/liquidationBot.js:122-149 | below 1.0: liquidate iff profitable, otherwise skip; from 1.0 up to 1.2: warn only; at 1.2 or above: nothing |
| LiquidationBotModel.ClassifyAgreesWithPosition | backend/src/services/liquidationBot.js:122-149 | the bot acts or warns exactly when the record is at risk, and attempts a liquidation only when it is liquidatable |
| LiquidationBotModel.Liquidate | backend/src/services/liquidationBot.js:217-277 | only a confirmed receipt (status 1) marks the record liquidated, with the time and the lower-cased transaction hash; otherwise the record is unchanged; validity and lower-casing are preserved |
| LiquidationBotModel.LiquidateDoesNotRecheckStatus | backend/src/services/liquidationBot.js:217-253 | a confirmed liquidation turns even a repaid record into a liquidated one, which is not an allowed transition |
| LiquidationBotModel.CheckPosition | backend/src/services/liquidationBot.js:108-160 | the same identity; validity and lower-casing preserved; from active, only a move to a terminal status; only health factor, status and the liquidation fields change; a successful read records raw / 1e18; a "Position not active" error closes the record; the record ends liquidated iff the read succeeded, the health factor is below 1.0, the liquidation pays and the receipt confirms; after a successful read an active record is either the record with the new health factor or that record as `Liquidate` leaves it (time and hash set), so an unconfirmed liquidation leaves it active |
| LiquidationBotModel.Sweep | backend/src/services/liquidationBot.js:83-103 | every active record is checked against the chain's answers at its own turn, for its on-chain id; every other record is left as it was; each record keeps its identity, validity and lower-casing, and an active one moves only as the lifecycle allows |
| LiquidationBotModel.CheckPositionAsWritten | backend/src/services/liquidationBot.js:150-159 | with the schema as written, a "Position not active" error ends in a validation failure; otherwise the check is as in `CheckPosition` |
| LiquidationBotModel.SweepAsWritten | backend/src/services/liquidationBot.js:83-103 | the sweep as written covers the same records and leaves the records before its starting slot alone |
| LiquidationBotModel.SweepAsWrittenAgrees | backend/src/services/liquidationBot.js:83-103 | when no read answers "Position not active", the sweep as written ends exactly as the intended sweep |
| LiquidationBotModel.SweepAsWrittenStalls | backend/src/services/liquidationBot.js:150-155 | as written, while every read of on-chain position 0 answers "Position not active", no sweep changes any record |
| LiquidationBotModel.SweepClosesInactiveOnChain | backend/src/services/liquidationBot.js:150-155 | as intended, those answers close every active record and leave the others unchanged |
| LiquidationBotModel.LiquidationBot.constructor | backend/src/services/liquidationBot.js:21-23 | the bot starts stopped, with the configured interval and minimum profit, or 12000 ms and 50 USD when they are absent or 0 |
| LiquidationBotModel.LiquidationBot.Start | backend/src/services/liquidationBot.js:35-62 | afterwards the bot runs with the listener and the timer armed; starting a running bot changes nothing |
| LiquidationBotModel.LiquidationBot.Stop | backend/src/services/liquidationBot.js:67-78 | afterwards the bot is stopped with the listener and the timer removed; stopping a stopped bot changes nothing |
| LiquidationBotModel.LiquidationBot.CheckOne | backend/src/services/liquidationBot.js:96-98 | one turn of the loop: exactly that record becomes its checked version when active, and is left alone otherwise |
| LiquidationBotModel.LiquidationBot.CheckPositions | backend/src/services/liquidationBot.js:83-103 | the collection afterwards is the sweep of the one before; the hash index is unchanged |
| LoansControllerModel.FeeRate | backend/src/controllers/loansController.js:113-114 | the rate is the percentage over 100, in [0, 1] for a valid record, and 0 when no active record exists |
| LoansControllerModel.Origination | backend/src/controllers/loansController.js:117-131 | the fee is borrowAmount × rate and fee + net received = amount borrowed; a rate in [0, 1] keeps both between 0 and the amount borrowed; no fee leaves the whole amount |
| LoansControllerModel.OriginationNeverExceedsLoan | backend/src/models/FeeService.js:14-20 | with every fee record valid, the origination fee never exceeds the loan and the net received is non-negative |
| LoansControllerModel.ServicePayload | backend/src/controllers/loansController.js:111-137 | the service receives the request with the backend's fee and net amount, LTV 0.70 when it is absent or 0, network sepolia when it is absent, and a block number only when it is non-zero, and nothing else altered |
| LoansControllerModel.CreatePosition | backend/src/controllers/loansController.js:67-182 | 400 iff a required field is missing or the address or hash is malformed, with nothing written; 201 with the stored record for a known hash, with nothing written; otherwise 201 iff the service builds the record, which is then appended, counted in its user's statistics, and carries the backend's fee and net amount; 500 with nothing written when the service throws |
| LoansControllerModel.EffectiveYears | backend/src/controllers/loansController.js:327-332 | the time charged is the elapsed time in years, but never less than one hour |
| LoansControllerModel.Quote | backend/src/controllers/loansController.js:338-341 | total due = principal + interest + service fee; interest = principal × rate × time charged |
| LoansControllerModel.QuoteBounds | backend/src/controllers/loansController.js:332-341 | with non-negative rates, at least one hour of interest is charged and the total due is at least the principal |
| LoansControllerModel.RepayPosition | backend/src/controllers/loansController.js:307-374 | 404 for an unknown id and 400 for a record that is not active, changing nothing; otherwise exactly that record becomes repaid at that time and the reply carries the total due and the collateral released; after success, a second repay gets 400 |
| LoansControllerModel.ConfigMap | backend/src/controllers/loansController.js:292-298 | the map has a key exactly for each type present, each mapped to the percentage and recipient of a record of that type |
| LoansControllerModel.FeesConfig | backend/src/controllers/loansController.js:286-305 | the map has a key exactly for each type with an active record |
| LoansControllerModel.FeesConfigAgreesWithLookup | backend/src/controllers/loansController.js:289-298 | under the unique index, the map shows exactly the record the fee lookups charge, and lacks a type iff the lookup finds none |
| LoansControllerModel.GetUserPositions | backend/src/controllers/loansController.js:184-237 | 400 iff the address is missing or malformed; otherwise 200 with exactly the stored records of that address that match the filters, each as often as stored (so `count` is the number of matches), newest first |
| LoansControllerModel.GetPositionById | backend/src/controllers/loansController.js:239-267 | 400 without an id, 404 for an unknown id, 200 with the record otherwise |
| LoansControllerModel.ActiveFor | backend/src/controllers/loansController.js:17-20 | exactly the active cached records of the token, each as often as stored, newest first |
| LoansControllerModel.FreshIffRecentRecord | backend/src/controllers/loansController.js:24-25 | the cache is fresh iff some active record of the token was updated less than five minutes ago |
| LoansControllerModel.Upsert | backend/src/controllers/loansController.js:38-51 | afterwards some record for (protocol, token) carries the new APY, risk, TVL and time; a matched record keeps its maximum LTV and active flag, and a new one gets the schema's defaults; one record is added iff none matched; every other record is unchanged; the unique pairs are preserved |
| LoansControllerModel.UpsertAll | backend/src/controllers/loansController.js:53-55 | the bulk write preserves the unique (protocol, token) index, adds at most one record per rate, and leaves unchanged every record whose pair no rate names |
| LoansControllerModel.UpsertAllStampsEveryRate | backend/src/controllers/loansController.js:38-55 | after the bulk write, every live rate's protocol has a record for the token stamped with the refresh time and carrying the apy, risk and tvl of the last live rate that names that protocol |
| LoansControllerModel.LastFor | backend/src/controllers/loansController.js:38-55 | the last index whose rate names the protocol, or None exactly when no rate names it: the `$set` that is applied last for the pair |
| LoansControllerModel.DistinctRatesStampOwnValues | backend/src/controllers/loansController.js:38-55 | with one live rate per protocol, each rate's pair ends with that rate's own apy, risk, tvl and the refresh time |
| LoansControllerModel.OpportunityCache.WriteThrough | backend/src/controllers/loansController.js:37-55 | performing the upserts one after the other leaves the collection equal to `UpsertAll` of the live rates, so it keeps the unique (protocol, token) index |
| LoansControllerModel.OpportunityCache.GetOpportunities | backend/src/controllers/loansController.js:8-65 | 400 without a token; the cached records when fresh, changing nothing; otherwise the live rates, after every one of them is upserted into the cache |
| UserControllerModel.ConnectionMessage | backend/src/controllers/userController.js:38 | "User registered" iff the connection count is 1, otherwise "User reconnected" |
| UserControllerModel.StatsAfterConnect | backend/src/controllers/userController.js:22-34 | a new address gets fresh counters; an existing one gets `AfterConnection` of its counters, which is one more connection and nothing else; no other user changes |
| UserControllerModel.RegisteredOnlyOnce | backend/src/controllers/userController.js:24-38 | with valid counters, the reply says "User registered" iff the address was not registered before |
| UserControllerModel.ConnectUser | backend/src/controllers/userController.js:4-57 | 400 for a missing or malformed address, with nothing written; otherwise the lower-cased address is connected or registered, and the reply carries its counters; its message is the `ConnectionMessage` of the stored count, which says "User registered" iff the address is new |

## Left out

- The job queue (`queueService.js`), the rates service (`dexService.js`), the Redis cache reads, writes and deletes, and all logging are not modelled. The live rates are an input to `GetOpportunities`.
- Overlapping sweeps are not modelled. The block listener and the interval timer can both run `checkPositions` at once, and nothing in the sweep consults `isRunning`. The model runs one sweep at a time.
- IEEE-754 behaviour is not modelled: `Number(bigint)` rounding, `parseFloat` of strings, and NaN. The one exception is the missing ETH price, which is modelled as "not profitable". The stored APY string's numeric value is a function parameter (`percentOf`), and numeric request fields arrive already parsed.
- Common.ToLower lower-cases ASCII letters only, while JavaScript's `toLowerCase` also folds non-ASCII letters. For the user address and the position's transaction hash this makes no difference on the paths through the controllers, because the hex patterns they check first admit only ASCII. Three fields reach `toLowerCase` with no pattern check: `adapterAddress` and `tokenAddress` (backend/src/services/positionService.js:52,54) and `repaymentTxHash` (backend/src/services/positionService.js:198). For those, a non-ASCII capital letter is kept as it is by the model, where the source would fold it.
- Document ids are natural numbers. A malformed id, which mongoose answers with a cast error and the controllers map to 500, is not modelled.
- The controller's 409 reply is not modelled. It needs a duplicate-key error from two concurrent creations. A sequential store returns the existing record first.
- Validation of the opportunity schema on upsert is not modelled, since `updateOne` does not run validators by default. Its `timestamps` are not modelled either.
- The automatic `createdAt` and `updatedAt` timestamps are not modelled. A new position's `createdAt` is the `now` parameter.
- The bot's `getStatus` reporting and the `blockNumber` passed to `checkPositions` are not modelled, because they are only logged or echoed.
- The service's `getAtRiskPositions` and `getLiquidatablePositions` are not modelled separately. They only wrap `FindAtRisk` and `FindLiquidatable` over the collection. The `getPlatformStats` handler is not modelled either: it passes `GetPlatformStats` through, or answers 500.
- UserModel.User.IncrementPositions and UserModel.UserRegistry.IncrementPositions, which delegates to it, require a non-negative amount. The source accepts any number. Every caller passes a principal that already passed the schema's `min: 0`.
- UserModel.User.RecordRepayment and UserModel.UserRegistry.RecordRepayment, which delegates to it, require a non-negative amount. The service calls them only with a given amount, which the position's save has already checked against `min: 0`. An absent amount is not passed to them. Instead, `PositionService.RepayPosition` models what `totalRepaid += undefined` leads to: the NaN fails the user's save.
- LiquidationBotModel.SweepAsWritten states only that the sweep covers the same records and leaves the records before its starting slot alone. Its behaviour is stated by two lemmas. `SweepAsWrittenStalls` covers sweeps where every read answers "Position not active", and `SweepAsWrittenAgrees` covers sweeps where none does. Sweeps that mix the two answers are not characterised beyond the length.

## Findings

| source | as written | input that shows it | evidently intended | confidence | as-written member | corrected member |
|---|---|---|---|---|---|---|
| backend/src/services/liquidationBot.js:150-155 | the catch block sets status `'closed'` and saves. The status enum at backend/src/models/Position.js:112-118 has no `closed`, so the save fails validation. That error escapes the catch and ends the `checkPositions` loop, and the record stays active | a collection with an active position, where the contract's `getHealthFactor` reverts with "Position not active". Every position is read as on-chain id 0, so each later sweep stalls on the same record | the record is marked closed and the sweep goes on to the remaining positions | not executed | LiquidationBotModel.SweepAsWrittenStalls | LiquidationBotModel.SweepClosesInactiveOnChain |

The rest of the model uses the corrected behaviour: `SchemaValid` admits `closed`, and `SchemaValidAsWritten` is the enum as declared.

=== FILE: common.dfy ===
/** Values shared by every part of the model: optional fields, the outcome of
    calls into code the model does not see, and the string checks the backend
    applies to Ethereum addresses and transaction hashes. */
module Common {

  datatype Option<T> = None | Some(value: T)

  /** What a call outside the model (a contract read, an RPC, a transaction)
      did: it returned a value, or it threw an error carrying a message. */
  datatype Call<T> = Returned(value: T) | Threw(message: string)

  /** An HTTP reply: a success status with its payload, or an error status
      with the message sent back. */
  datatype Reply<T> = Success(status: nat, data: T) | Failure(status: nat, error: string)

  /** JavaScript truthiness of an optional string field: absent and "" are falsy. */
  predicate Present(s: Option<string>) {
    s.Some? && s.value != ""
  }

  /** JavaScript truthiness of an optional number field: absent and 0 are falsy. */
  predicate NonZero(x: Option<real>) {
    x.Some? && x.value != 0.0
  }

  predicate IsHexDigit(c: char) {
    ('0' <= c <= '9') || ('a' <= c <= 'f') || ('A' <= c <= 'F')
  }

  /** The pattern `^0x[a-fA-F0-9]{n}$`. */
  predicate IsPrefixedHex(s: string, n: nat) {
    |s| == n + 2 && s[0] == '0' && s[1] == 'x' &&
    forall i :: 2 <= i < |s| ==> IsHexDigit(s[i])
  }

  /** `^0x[a-fA-F0-9]{40}$`: an Ethereum account address. */
  predicate IsAddress(s: string) {
    IsPrefixedHex(s, 40)
  }

  /** `^0x[a-fA-F0-9]{64}$`: a transaction hash. */
  predicate IsTxHash(s: string) {
    IsPrefixedHex(s, 64)
  }

  function LowerChar(c: char): (d: char)
    ensures 'A' <= c <= 'Z' ==> d as int == c as int + 32
    ensures !('A' <= c <= 'Z') ==> d == c
    ensures !('A' <= d <= 'Z')
  {
    if 'A' <= c <= 'Z' then (c as int + 32) as char else c
  }

  /** `String.prototype.toLowerCase` on ASCII letters. */
  function ToLower(s: string): (r: string)
    ensures |r| == |s|
    ensures forall i :: 0 <= i < |s| ==> r[i] == LowerChar(s[i])
  {
    seq(|s|, i requires 0 <= i < |s| => LowerChar(s[i]))
  }

  /** A string that lower-casing leaves as it is. */
  predicate IsLower(s: string) {
    ToLower(s) == s
  }

  /** Lower-casing twice is lower-casing once: every stored, lower-cased
      field is a fixed point of the setter that lower-cased it. */
  lemma ToLowerIsLower(s: string)
    ensures IsLower(ToLower(s))
  {
    var t := ToLower(s);
    assert forall i :: 0 <= i < |t| ==> ToLower(t)[i] == t[i];
  }

  /** Lower-casing keeps a match of the hex pattern a match, so a value the
      controller accepts is still accepted by the schema's validator after
      the schema's lower-case setter has run. (The converse fails: "0X..."
      lower-cases to a match.) */
  lemma ToLowerKeepsHex(s: string, n: nat)
    requires IsPrefixedHex(s, n)
    ensures IsPrefixedHex(ToLower(s), n)
  {
    var t := ToLower(s);
    forall i | 2 <= i < |s|
      ensures IsHexDigit(t[i])
    {
      assert t[i] == LowerChar(s[i]);
    }
  }

  /** `String.prototype.includes`: `sub` occurs somewhere in `s`. */
  predicate Contains(s: string, sub: string) {
    |sub| <= |s| && (s[..|sub|] == sub || Contains(s[1..], sub))
  }
}

=== FILE: fee_service.dfy ===
/** The platform's fee configuration: one record per fee type, each with a
    percentage, the address that receives the fee and an active flag. */
module FeeServiceModel {
  import opened Common

  datatype FeeType = LoanOrigination | LoanRepayment

  datatype FeeService = FeeService(
    feeType: FeeType,
    name: string,
    percentage: real,
    recipientAddress: string,
    isActive: bool,
    description: Option<string>)

  /** What the schema's validators accept: a name, a percentage in [0, 100]
      and a recipient that is an Ethereum address. */
  predicate IsValidFee(f: FeeService) {
    f.name != "" && 0.0 <= f.percentage <= 100.0 && IsAddress(f.recipientAddress)
  }

  /** The fields a caller supplies when creating a record; absent ones take
      the schema's defaults. */
  datatype FeeInput = FeeInput(
    feeType: FeeType,
    name: string,
    percentage: Option<real>,
    recipientAddress: string,
    isActive: Option<bool>,
    description: Option<string>)

  /** A new record with the schema's defaults filled in, or None when
      validation rejects it. */
  function MakeFee(input: FeeInput): (r: Option<FeeService>)
    ensures r.Some? <==>
      input.name != "" && IsAddress(input.recipientAddress) &&
      (input.percentage.Some? ==> 0.0 <= input.percentage.value <= 100.0)
    ensures r.Some? ==> IsValidFee(r.value) && r.value.feeType == input.feeType
    ensures r.Some? && input.percentage.None? ==> r.value.percentage == 0.0
    ensures r.Some? && input.isActive.None? ==> r.value.isActive
    ensures r.Some? ==>
      && r.value.name == input.name && r.value.recipientAddress == input.recipientAddress
      && r.value.description == input.description
      && (input.percentage.Some? ==> r.value.percentage == input.percentage.value)
      && (input.isActive.Some? ==> r.value.isActive == input.isActive.value)
  {
    var f := FeeService(
      input.feeType,
      input.name,
      if input.percentage.Some? then input.percentage.value else 0.0,
      input.recipientAddress,
      if input.isActive.Some? then input.isActive.value else true,
      input.description);
    if IsValidFee(f) then Some(f) else None
  }

  /** The unique index on `type`: no two records share a fee type. */
  predicate UniqueTypes(fees: seq<FeeService>) {
    forall i, j :: 0 <= i < j < |fees| ==> fees[i].feeType != fees[j].feeType
  }

  /** Saving a record into the collection: rejected when it fails
      validation or when its type is already taken. */
  function InsertFee(fees: seq<FeeService>, f: FeeService): (r: Option<seq<FeeService>>)
    ensures UniqueTypes(fees) && r.Some? ==> UniqueTypes(r.value)
    ensures r.Some? <==> IsValidFee(f) && forall g :: g in fees ==> g.feeType != f.feeType
    ensures r.Some? ==> r.value == fees + [f]
  {
    if IsValidFee(f) && forall g :: g in fees ==> g.feeType != f.feeType then Some(fees + [f])
    else None
  }

  /** There are only two fee types, so among any three one repeats. */
  lemma ThreeTypesRepeat(a: FeeType, b: FeeType, c: FeeType)
    ensures a == b || a == c || b == c
  {
  }

  /** With two fee types and a unique index there are at most two records. */
  lemma AtMostOneRecordPerType(fees: seq<FeeService>)
    requires UniqueTypes(fees)
    ensures |fees| <= 2
  {
    if |fees| > 2 {
      ThreeTypesRepeat(fees[0].feeType, fees[1].feeType, fees[2].feeType);
      assert false;
    }
  }

  /** `findOne({ type: t, isActive: true })`: the first active record of
      type `t`. */
  function FindActiveFee(fees: seq<FeeService>, t: FeeType): (r: Option<FeeService>)
    ensures r.Some? ==> r.value in fees && r.value.feeType == t && r.value.isActive
    ensures r.None? <==> forall f :: f in fees ==> !(f.feeType == t && f.isActive)
  {
    if fees == [] then None
    else if fees[0].feeType == t && fees[0].isActive then Some(fees[0])
    else FindActiveFee(fees[1..], t)
  }

  /** Under the unique index the lookup finds THE record of that type. */
  lemma {:induction false} FindActiveFeeIsUnique(fees: seq<FeeService>, f: FeeService)
    requires UniqueTypes(fees)
    requires f in fees && f.isActive
    ensures FindActiveFee(fees, f.feeType) == Some(f)
  {
    if fees[0] != f {
      assert f in fees[1..];
      assert fees[0].feeType != f.feeType by {
        var j :| 0 <= j < |fees| && fees[j] == f;
        assert j != 0;
      }
      FindActiveFeeIsUnique(fees[1..], f);
    }
  }
}

=== FILE: liquidation_bot.dfy ===
/** The liquidation bot: reads each active position's health factor from the
    loan contract, records it, classifies the position, decides whether a
    liquidation pays, submits it and records the outcome. Every read from the
    chain is an input (a `ChainObservation`); the clock is a parameter. */
module LiquidationBotModel {
  import opened Common
  import opened PositionModel
  import opened PositionServiceModel

  /** A mined transaction: `status` 1 means success. */
  datatype Receipt = Receipt(status: int, hash: string)

  /** What the contract and the provider answer for one on-chain position:
      `getHealthFactor` (scaled by 1e18), `getCurrentDebt` (USDC, 6
      decimals), `config().liquidationBonusBps`, the fee data's gas price
      (wei), `liquidate.estimateGas`, and the receipt of the submitted
      `liquidate` transaction. */
  datatype ChainObservation = ChainObservation(
    healthFactor: Call<nat>,
    currentDebt: Call<nat>,
    liquidationBonusBps: Call<int>,
    gasPrice: Call<nat>,
    gasEstimate: Call<nat>,
    submission: Call<Receipt>)

  const DefaultCheckIntervalMs: int := 12000
  const DefaultMinProfitUSD: real := 50.0
  /** The gas the profitability estimate assumes for a liquidation. */
  const EstimatedLiquidationGas: real := 300000.0
  const NotActiveMessage: string := "Position not active"

  /** The hard-coded `MOCK_PRICES` table; it has no entry for ETH, for which
      the collateral value is NaN and the profit comparison is false. */
  function MockPrice(tokenSymbol: string): (price: Option<real>)
    ensures price.Some? <==> tokenSymbol == "WETH" || tokenSymbol == "WBTC"
    ensures price.Some? ==> price.value > 0.0
  {
    if tokenSymbol == "WETH" then Some(2500.0)
    else if tokenSymbol == "WBTC" then Some(65000.0)
    else None
  }

  /** `_derivePositionId`: `position.onChainId || 0`. The position schema has
      no `onChainId` field, so a stored record never carries one and every
      position is looked up on chain as position 0. */
  function DerivePositionId(p: Position): (onChainId: nat)
    ensures onChainId == 0
  {
    0
  }

  /** `Number(raw) / 1e18`. */
  function HealthFactorFromChain(raw: nat): (hf: real)
    ensures hf * 1000000000000000000.0 == raw as real
    ensures hf >= 0.0
  {
    raw as real / 1000000000000000000.0
  }

  /** The net profit of liquidating `collateralAmount` units at `price` with
      the contract's bonus, repaying `debtRaw` (6 decimals) and paying
      300000 gas at `gasPriceWei`, priced in WETH. */
  function NetProfit(collateralAmount: real, price: real, bonusBps: int, debtRaw: nat, gasPriceWei: nat): real {
    var collateralValueUSD := collateralAmount * price;
    var bonus := collateralValueUSD * (bonusBps as real) / 10000.0;
    var debtUSD := debtRaw as real / 1000000.0;
    var gasCostUSD := (gasPriceWei as real) * EstimatedLiquidationGas / 1000000000000000000.0 * 2500.0;
    collateralValueUSD + bonus - debtUSD - gasCostUSD
  }

  /** Every read the profitability estimate makes succeeded and the token
      has a price. */
  predicate ProfitInputsKnown(p: Position, obs: ChainObservation) {
    obs.currentDebt.Returned? && obs.liquidationBonusBps.Returned? && obs.gasPrice.Returned?
    && MockPrice(p.tokenSymbol).Some?
  }

  /** `isProfitableLiquidation`: strictly more than `minProfitUSD` net, and
      "not profitable" whenever a read fails or the price is missing. */
  function IsProfitableLiquidation(p: Position, obs: ChainObservation, minProfitUSD: real): (profitable: bool)
    ensures !ProfitInputsKnown(p, obs) ==> !profitable
    ensures ProfitInputsKnown(p, obs) ==>
      (profitable <==> NetProfit(p.collateralAmount, MockPrice(p.tokenSymbol).value,
                                 obs.liquidationBonusBps.value, obs.currentDebt.value,
                                 obs.gasPrice.value) > minProfitUSD)
  {
    if obs.currentDebt.Threw? || obs.liquidationBonusBps.Threw? || obs.gasPrice.Threw? then false
    else
      match MockPrice(p.tokenSymbol)
      case None => false
      case Some(price) =>
        NetProfit(p.collateralAmount, price, obs.liquidationBonusBps.value,
                  obs.currentDebt.value, obs.gasPrice.value) > minProfitUSD
  }

  /** ETH collateral is never liquidated: the price table has no entry. */
  lemma EthIsNeverProfitable(p: Position, obs: ChainObservation, minProfitUSD: real)
    requires p.tokenSymbol == "ETH"
    ensures !IsProfitableLiquidation(p, obs, minProfitUSD)
  {
  }

  /** More collateral never turns a profitable liquidation unprofitable,
      as long as the bonus is not below -100%. */
  lemma ProfitMonotoneInCollateral(p: Position, obs: ChainObservation, minProfitUSD: real, more: real)
    requires obs.liquidationBonusBps.Returned? && obs.liquidationBonusBps.value >= -10000
    requires p.collateralAmount <= more
    requires IsProfitableLiquidation(p, obs, minProfitUSD)
    ensures IsProfitableLiquidation(p.(collateralAmount := more), obs, minProfitUSD)
  {
    var price := MockPrice(p.tokenSymbol).value;
    var bps := obs.liquidationBonusBps.value as real;
    var d := (more - p.collateralAmount) * price;
    assert d >= 0.0 by {
      assert more - p.collateralAmount >= 0.0 && price > 0.0;
    }
    assert (d * bps / 10000.0) + d == d * (bps + 10000.0) / 10000.0;
    assert d * (bps + 10000.0) >= 0.0;
    assert more * price == p.collateralAmount * price + d;
  }

  /** Less debt never turns a profitable liquidation unprofitable. */
  lemma ProfitMonotoneInDebt(p: Position, obs: ChainObservation, minProfitUSD: real, less: nat)
    requires obs.currentDebt.Returned? && less <= obs.currentDebt.value
    requires IsProfitableLiquidation(p, obs, minProfitUSD)
    ensures IsProfitableLiquidation(p, obs.(currentDebt := Returned(less)), minProfitUSD)
  {
  }

  /** One WETH of collateral, a 5% bonus, 2000 USDC of debt and free gas
      nets 2500 + 125 - 2000 = 625 USD, above the default 50. */
  lemma ProfitExample(p: Position, obs: ChainObservation)
    requires p.tokenSymbol == "WETH" && p.collateralAmount == 1.0
    requires obs.currentDebt == Returned(2000000000) && obs.liquidationBonusBps == Returned(500)
    requires obs.gasPrice == Returned(0)
    ensures NetProfit(1.0, 2500.0, 500, 2000000000, 0) == 625.0
    ensures IsProfitableLiquidation(p, obs, DefaultMinProfitUSD)
  {
  }

  /** `gasEstimate * 120n / 100n`: a 20% buffer in integer division. */
  function GasLimit(estimate: nat): (limit: nat)
    ensures limit >= estimate
    ensures limit * 100 <= estimate * 120 < (limit + 1) * 100
  {
    estimate * 120 / 100
  }

  /** What `checkPosition` does with a health factor. */
  datatype Verdict = AttemptLiquidation | SkipUnprofitable | WarnAtRisk | Healthy

  /** Below 1.0: liquidate when profitable, else skip; below 1.2: warn;
      otherwise nothing. */
  function Classify(hf: real, profitable: bool): (v: Verdict)
    ensures v == AttemptLiquidation <==> hf < LiquidatableBelow && profitable
    ensures v == SkipUnprofitable <==> hf < LiquidatableBelow && !profitable
    ensures v == WarnAtRisk <==> LiquidatableBelow <= hf < AtRiskBelow
    ensures v == Healthy <==> hf >= AtRiskBelow
  {
    if hf < LiquidatableBelow then (if profitable then AttemptLiquidation else SkipUnprofitable)
    else if hf < AtRiskBelow then WarnAtRisk
    else Healthy
  }

  /** The classification agrees with the position's own predicates: a
      position is acted on or warned about exactly when it is at risk, and
      a liquidation is attempted only on a liquidatable position. */
  lemma ClassifyAgreesWithPosition(p: Position, profitable: bool)
    ensures Classify(p.healthFactor, profitable) != Healthy <==> IsAtRisk(p)
    ensures Classify(p.healthFactor, profitable) == AttemptLiquidation ==> CanBeLiquidated(p)
    ensures Classify(p.healthFactor, profitable) == WarnAtRisk ==> IsAtRisk(p) && !CanBeLiquidated(p)
  {
  }

  /** The submitted liquidation was mined with status 1. */
  predicate Confirmed(obs: ChainObservation) {
    obs.gasEstimate.Returned? && obs.submission.Returned? && obs.submission.value.status == 1
  }

  /** `liquidatePosition`: only a confirmed receipt marks the position
      liquidated, with the time and the (lower-cased) transaction hash; a
      failed estimate, a failed submission or a failed receipt leave it as
      it was. */
  function Liquidate(p: Position, obs: ChainObservation, now: int): (q: Position)
    ensures Confirmed(obs) ==>
      q == p.(status := Liquidated, liquidatedAt := Some(now),
              liquidationTxHash := Some(ToLower(obs.submission.value.hash)))
    ensures !Confirmed(obs) ==> q == p
    ensures SchemaValid(p) ==> SchemaValid(q)
    ensures LowerCased(p) ==> LowerCased(q)
  {
    if Confirmed(obs) then
      ToLowerIsLower(obs.submission.value.hash);
      p.(status := Liquidated, liquidatedAt := Some(now),
         liquidationTxHash := Some(ToLower(obs.submission.value.hash)))
    else p
  }

  /** Nothing checks the status again before submitting: a confirmed
      liquidation overwrites whatever status the record holds. */
  lemma LiquidateDoesNotRecheckStatus(p: Position, obs: ChainObservation, now: int)
    requires p.status == Repaid && Confirmed(obs)
    ensures Liquidate(p, obs, now).status == Liquidated
    ensures !AllowedTransition(p.status, Liquidate(p, obs, now).status)
  {
  }

  /** `checkPosition` with `closed` accepted by validation: record the
      health factor read from the chain, classify, and liquidate when that
      pays; a read that fails with "Position not active" closes the record. */
  function CheckPosition(p: Position, obs: ChainObservation, minProfitUSD: real, now: int): (q: Position)
    ensures SameIdentity(p, q)
    ensures SchemaValid(p) ==> SchemaValid(q)
    ensures LowerCased(p) ==> LowerCased(q)
    ensures p.status == Active ==> AllowedTransition(p.status, q.status)
    ensures q == p.(healthFactor := q.healthFactor, status := q.status,
                    liquidatedAt := q.liquidatedAt, liquidationTxHash := q.liquidationTxHash)
    ensures obs.healthFactor.Returned? ==> q.healthFactor == HealthFactorFromChain(obs.healthFactor.value)
    ensures obs.healthFactor.Threw? ==>
      q == (if Contains(obs.healthFactor.message, NotActiveMessage) then p.(status := Closed) else p)
    ensures p.status == Active ==>
      (q.status == Liquidated <==>
         && obs.healthFactor.Returned?
         && HealthFactorFromChain(obs.healthFactor.value) < LiquidatableBelow
         && IsProfitableLiquidation(p, obs, minProfitUSD)
         && Confirmed(obs))
    ensures p.status == Active && obs.healthFactor.Returned? ==>
      var r := p.(healthFactor := HealthFactorFromChain(obs.healthFactor.value));
      q == (if q.status == Liquidated then Liquidate(r, obs, now) else r)
    ensures p.status == Active && obs.healthFactor.Returned? && !Confirmed(obs) ==> q.status == Active
  {
    match obs.healthFactor
    case Threw(message) =>
      if Contains(message, NotActiveMessage) then p.(status := Closed) else p
    case Returned(raw) =>
      var hf := HealthFactorFromChain(raw);
      var r := p.(healthFactor := hf);
      assert IsProfitableLiquidation(r, obs, minProfitUSD) == IsProfitableLiquidation(p, obs, minProfitUSD);
      match Classify(hf, hf < LiquidatableBelow && IsProfitableLiquidation(r, obs, minProfitUSD))
      case AttemptLiquidation => Liquidate(r, obs, now)
      case _ => r
  }

  /** The chain over one sweep: `chain(k)(id)` is what the contract and the
      provider answer about on-chain position `id` when the sweep reaches
      the record in slot `k`. Every record is read afresh and gets its own
      `liquidate` submission, so what an earlier record's liquidation did on
      chain can change what the later records see. */
  type Chain = nat -> nat -> ChainObservation

  /** The read reverted with "Position not active". */
  predicate AnswersNotActive(obs: ChainObservation) {
    obs.healthFactor.Threw? && Contains(obs.healthFactor.message, NotActiveMessage)
  }

  /** The record in slot `k` at its turn: an active record is checked
      against the chain's answers for its on-chain id; the others are not
      read. */
  function SweepOne(p: Position, k: nat, chain: Chain, minProfitUSD: real, now: int): Position {
    if p.status == Active then CheckPosition(p, chain(k)(DerivePositionId(p)), minProfitUSD, now) else p
  }

  /** `checkPositions` over the whole collection, every record checked: each
      keeps its identity, validity and lower-casing, an inactive record is
      untouched, and an active one moves only as the lifecycle allows. */
  function Sweep(ps: seq<Position>, chain: Chain, minProfitUSD: real, now: int): (r: seq<Position>)
    ensures |r| == |ps|
    ensures forall i :: 0 <= i < |ps| ==> r[i] == SweepOne(ps[i], i, chain, minProfitUSD, now)
    ensures forall i :: 0 <= i < |ps| ==> SameIdentity(ps[i], r[i])
    ensures forall i :: 0 <= i < |ps| && SchemaValid(ps[i]) && LowerCased(ps[i]) ==>
      SchemaValid(r[i]) && LowerCased(r[i])
    ensures forall i :: 0 <= i < |ps| && ps[i].status != Active ==> r[i] == ps[i]
    ensures forall i :: 0 <= i < |ps| && ps[i].status == Active ==> AllowedTransition(Active, r[i].status)
  {
    seq(|ps|, i requires 0 <= i < |ps| => SweepOne(ps[i], i, chain, minProfitUSD, now))
  }

  /** `checkPosition` with the schema as written: saving `closed` fails
      validation, and that error is thrown out of the catch block. */
  function CheckPositionAsWritten(p: Position, obs: ChainObservation, minProfitUSD: real, now: int)
    : (r: Result<Position>)
    ensures AnswersNotActive(obs) ==> r == Err(ValidationFailed)
    ensures !AnswersNotActive(obs) ==> r == Ok(CheckPosition(p, obs, minProfitUSD, now))
  {
    if AnswersNotActive(obs) then
      var closed := p.(status := Closed);
      if SchemaValidAsWritten(closed) then Ok(closed) else Err(ValidationFailed)
    else Ok(CheckPosition(p, obs, minProfitUSD, now))
  }

  /** `checkPositions` as written, from slot `k` on (the sweep starts at
      0): the loop runs inside one try block, so the first thrown error
      ends the sweep and that record and the ones after it are left as
      they are. */
  function SweepAsWritten(ps: seq<Position>, k: nat, chain: Chain, minProfitUSD: real, now: int)
    : (r: seq<Position>)
    requires k <= |ps|
    ensures |r| == |ps|
    ensures forall i :: 0 <= i < k ==> r[i] == ps[i]
    decreases |ps| - k
  {
    if k == |ps| then ps
    else if ps[k].status != Active then SweepAsWritten(ps, k + 1, chain, minProfitUSD, now)
    else
      match CheckPositionAsWritten(ps[k], chain(k)(DerivePositionId(ps[k])), minProfitUSD, now)
      case Err(_) => ps
      case Ok(q) => SweepAsWritten(ps[k := q], k + 1, chain, minProfitUSD, now)
  }

  /** Away from the failing save, the sweep as written is the sweep: when
      no read answers "Position not active", every record from slot `k` on
      ends as `SweepOne` makes it. */
  lemma {:induction false} SweepAsWrittenAgrees(ps: seq<Position>, k: nat, chain: Chain,
                                                minProfitUSD: real, now: int)
    requires k <= |ps|
    requires forall j :: !AnswersNotActive(chain(j)(0))
    ensures forall i :: k <= i < |ps| ==>
      SweepAsWritten(ps, k, chain, minProfitUSD, now)[i] == SweepOne(ps[i], i, chain, minProfitUSD, now)
    ensures k == 0 ==> SweepAsWritten(ps, k, chain, minProfitUSD, now) == Sweep(ps, chain, minProfitUSD, now)
    decreases |ps| - k
  {
    if k < |ps| {
      if ps[k].status != Active {
        SweepAsWrittenAgrees(ps, k + 1, chain, minProfitUSD, now);
      } else {
        var q := CheckPosition(ps[k], chain(k)(0), minProfitUSD, now);
        assert !AnswersNotActive(chain(k)(0));
        var qs := ps[k := q];
        SweepAsWrittenAgrees(qs, k + 1, chain, minProfitUSD, now);
        assert forall i :: k < i < |ps| ==> qs[i] == ps[i];
      }
    }
  }

  /** The discrepancy, as written: once the chain answers "Position not
      active" for the (shared) on-chain id, no sweep changes any record, so
      the position never leaves `active` and no other position is ever
      refreshed or liquidated again. */
  lemma {:induction false} SweepAsWrittenStalls(ps: seq<Position>, k: nat, chain: Chain,
                                                minProfitUSD: real, now: int)
    requires k <= |ps|
    requires forall j :: AnswersNotActive(chain(j)(0))
    ensures SweepAsWritten(ps, k, chain, minProfitUSD, now) == ps
    decreases |ps| - k
  {
    if k < |ps| && ps[k].status != Active {
      SweepAsWrittenStalls(ps, k + 1, chain, minProfitUSD, now);
    }
  }

  /** The intended behaviour: the same answer closes every active record and
      leaves the others alone. */
  lemma SweepClosesInactiveOnChain(ps: seq<Position>, chain: Chain, minProfitUSD: real, now: int, i: nat)
    requires forall j :: AnswersNotActive(chain(j)(0))
    requires i < |ps|
    ensures Sweep(ps, chain, minProfitUSD, now)[i]
         == if ps[i].status == Active then ps[i].(status := Closed) else ps[i]
  {
    assert AnswersNotActive(chain(i)(0));
  }

  /** The bot's own state: whether it runs, whether the block listener and
      the interval timer are armed, and its two settings. */
  class LiquidationBot {
    var isRunning: bool
    var listening: bool
    var intervalArmed: bool
    const checkIntervalMs: int
    const minProfitUSD: real

    ghost predicate Valid()
      reads this
    {
      listening == isRunning && intervalArmed == isRunning
    }

    /** `config.checkInterval || 12000` and `config.minProfitUSD || 50`. */
    constructor (checkInterval: Option<int>, minProfit: Option<real>)
      ensures Valid() && !isRunning
      ensures checkIntervalMs ==
        if checkInterval.Some? && checkInterval.value != 0 then checkInterval.value else DefaultCheckIntervalMs
      ensures minProfitUSD == if NonZero(minProfit) then minProfit.value else DefaultMinProfitUSD
    {
      isRunning, listening, intervalArmed := false, false, false;
      checkIntervalMs :=
        if checkInterval.Some? && checkInterval.value != 0 then checkInterval.value else DefaultCheckIntervalMs;
      minProfitUSD := if NonZero(minProfit) then minProfit.value else DefaultMinProfitUSD;
    }

    /** `start`: a no-op when already running; otherwise arm the block
      listener and the interval timer. */
    method Start()
      requires Valid()
      modifies this
      ensures Valid() && isRunning
      ensures old(isRunning) ==> listening == old(listening) && intervalArmed == old(intervalArmed)
    {
      if isRunning {
        return;
      }
      isRunning := true;
      listening := true;
      intervalArmed := true;
    }

    /** `stop`: a no-op when stopped; otherwise remove the listener and
      clear the timer. */
    method Stop()
      requires Valid()
      modifies this
      ensures Valid() && !isRunning
      ensures !old(isRunning) ==> listening == old(listening) && intervalArmed == old(intervalArmed)
    {
      if !isRunning {
        return;
      }
      isRunning := false;
      listening := false;
      intervalArmed := false;
    }

    /** `checkPositions`: check every active record, one after the other,
      saving each. */
    method CheckPositions(store: PositionService, chain: Chain, now: int)
      requires store.Valid()
      modifies store
      ensures store.Valid() && store.txIndex == old(store.txIndex)
      ensures store.positions == Sweep(old(store.positions), chain, minProfitUSD, now)
    {
      var i := 0;
      while i < |store.positions|
        invariant store.Valid() && store.txIndex == old(store.txIndex)
        invariant 0 <= i <= |store.positions| == |old(store.positions)|
        invariant forall j :: 0 <= j < i ==>
          store.positions[j] == SweepOne(old(store.positions)[j], j, chain, minProfitUSD, now)
        invariant forall j :: i <= j < |store.positions| ==> store.positions[j] == old(store.positions)[j]
      {
        CheckOne(store, i, chain, now);
        i := i + 1;
      }
    }

    /** One turn of the sweep: an active record is checked and saved. */
    method CheckOne(store: PositionService, i: nat, chain: Chain, now: int)
      requires store.Valid() && i < |store.positions|
      modifies store
      ensures store.Valid() && store.txIndex == old(store.txIndex)
      ensures store.positions ==
        old(store.positions)[i := SweepOne(old(store.positions)[i], i, chain, minProfitUSD, now)]
    {
      var p := store.positions[i];
      store.StoredAt(i);
      if p.status == Active {
        var q := CheckPosition(p, chain(i)(DerivePositionId(p)), minProfitUSD, now);
        var saved := store.Save(q);
      }
    }
  }
}

=== FILE: loans_controller.dfy ===
/** The loans HTTP controller: request validation for new positions, the
    origination fee and the amount the borrower receives, the repayment quote
    (interest with a one-hour minimum plus the service fee), the fee
    configuration map, the per-user and by-id lookups, and the opportunity
    rates cache with its five-minute freshness rule. */
module LoansControllerModel {
  import opened Common
  import opened Queries
  import opened PositionModel
  import opened PositionServiceModel
  import opened UserModel
  import opened FeeServiceModel

  // ----- createPosition -----

  /** `feeConfig ? feeConfig.percentage / 100 : 0`. */
  function FeeRate(config: Option<FeeService>): (rate: real)
    ensures config.None? ==> rate == 0.0
    ensures config.Some? ==> rate * 100.0 == config.value.percentage
    ensures config.Some? && IsValidFee(config.value) ==> 0.0 <= rate <= 1.0
  {
    if config.Some? then config.value.percentage / 100.0 else 0.0
  }

  /** The fee the platform keeps and what the borrower receives. */
  datatype OriginationTerms = OriginationTerms(platformFee: real, netReceived: real)

  /** `borrowAmount * serviceFeeRate` and `borrowAmount - calculatedFee`: the
      two always add up to the amount borrowed, and a rate in [0, 1] keeps
      both between 0 and the amount borrowed. */
  function Origination(borrowAmount: real, rate: real): (t: OriginationTerms)
    ensures t.platformFee == borrowAmount * rate
    ensures t.platformFee + t.netReceived == borrowAmount
    ensures borrowAmount >= 0.0 && 0.0 <= rate <= 1.0 ==>
      0.0 <= t.platformFee <= borrowAmount && 0.0 <= t.netReceived <= borrowAmount
    ensures rate == 0.0 ==> t.platformFee == 0.0 && t.netReceived == borrowAmount
  {
    var fee := borrowAmount * rate;
    assert borrowAmount >= 0.0 && 0.0 <= rate <= 1.0 ==> 0.0 <= fee <= borrowAmount by {
      if borrowAmount >= 0.0 && 0.0 <= rate <= 1.0 {
        FractionBounds(borrowAmount, rate);
      }
    }
    OriginationTerms(fee, borrowAmount - fee)
  }

  lemma ProductNonNegative(a: real, b: real)
    requires a >= 0.0 && b >= 0.0
    ensures a * b >= 0.0
  {
  }

  /** A fraction in [0, 1] of a non-negative amount lies between 0 and it. */
  lemma FractionBounds(a: real, r: real)
    requires a >= 0.0 && 0.0 <= r <= 1.0
    ensures 0.0 <= a * r <= a
  {
    ProductNonNegative(a, r);
    ProductNonNegative(a, 1.0 - r);
    assert a * (1.0 - r) == a - a * r;
  }

  /** With every stored fee record valid, the active origination record (if
      any) never takes more than the whole loan. */
  lemma OriginationNeverExceedsLoan(fees: seq<FeeService>, borrowAmount: real)
    requires forall f :: f in fees ==> IsValidFee(f)
    requires borrowAmount >= 0.0
    ensures var t := Origination(borrowAmount, FeeRate(FindActiveFee(fees, LoanOrigination)));
      0.0 <= t.platformFee <= borrowAmount && t.netReceived >= 0.0
  {
  }

  /** The three checks made before anything is read or written: the
      required fields, the address pattern and the transaction-hash pattern. */
  predicate CreateRequestValid(body: PositionData) {
    HasRequiredFields(body) && IsAddress(body.userAddress.value) && IsTxHash(body.txHash.value)
  }

  /** The object handed to the service: the request with the backend's own
      fee and net amount, `ltv || 0.70`, `network || 'sepolia'`, and a block
      number only when one was sent. */
  function ServicePayload(body: PositionData, fees: seq<FeeService>): (d: PositionData)
    requires HasRequiredFields(body)
    ensures HasRequiredFields(d)
    ensures var t := Origination(body.borrowAmount.value, FeeRate(FindActiveFee(fees, LoanOrigination)));
      d.platformFee == Some(t.platformFee) && d.netReceived == Some(t.netReceived)
    ensures d.ltv == Some(if NonZero(body.ltv) then body.ltv.value else DefaultLtv)
    ensures d.network == Some(if Present(body.network) then body.network.value else DefaultNetwork)
    ensures d.blockNumber.Some? <==> body.blockNumber.Some? && body.blockNumber.value != 0
    ensures d.(platformFee := body.platformFee, netReceived := body.netReceived, ltv := body.ltv,
               network := body.network, blockNumber := body.blockNumber) == body
  {
    var t := Origination(body.borrowAmount.value, FeeRate(FindActiveFee(fees, LoanOrigination)));
    body.(platformFee := Some(t.platformFee),
          netReceived := Some(t.netReceived),
          ltv := Some(if NonZero(body.ltv) then body.ltv.value else DefaultLtv),
          network := Some(if Present(body.network) then body.network.value else DefaultNetwork),
          blockNumber := if body.blockNumber.Some? && body.blockNumber.value != 0 then body.blockNumber else None)
  }

  /** `createPosition`: 400 on a missing field or a malformed address or
      hash before anything is touched; otherwise 201 with the record the
      service created or already held, or 500 when the service throws. */
  method CreatePosition(service: PositionService, users: UserRegistry, fees: seq<FeeService>,
                        body: PositionData, now: int)
    returns (reply: Reply<Position>)
    requires service.Valid() && users.Valid()
    modifies service, users, users.byAddress.Values
    ensures service.Valid() && users.Valid()
    ensures reply.Failure? && reply.status == 400 <==> !CreateRequestValid(body)
    ensures !CreateRequestValid(body) ==>
      service.positions == old(service.positions) && users.Stats() == old(users.Stats())
    ensures reply.Failure? ==>
      (reply.status == 400 || reply.status == 500)
      && service.positions == old(service.positions) && users.Stats() == old(users.Stats())
    ensures reply.Success? ==> reply.status == 201 && reply.data in service.positions
    ensures CreateRequestValid(body) && ToLower(body.txHash.value) in old(service.txIndex) ==>
      reply == Success(201, old(service.positions)[old(service.txIndex)[ToLower(body.txHash.value)]])
      && service.positions == old(service.positions) && users.Stats() == old(users.Stats())
    ensures CreateRequestValid(body) && ToLower(body.txHash.value) !in old(service.txIndex) ==>
      var built := BuildPosition(ServicePayload(body, fees), |old(service.positions)|, now);
      && (reply.Success? <==> built.Ok?)
      && (reply.Success? ==> reply.data == built.value && service.positions == old(service.positions) + [built.value]
                             && users.Stats() == UserStatsAfterCreate(old(users.Stats()), built.value))
    ensures reply.Success? && ToLower(body.txHash.value) !in old(service.txIndex) ==>
      var t := Origination(body.borrowAmount.value, FeeRate(FindActiveFee(fees, LoanOrigination)));
      reply.data.platformFee == t.platformFee && reply.data.netReceived == t.netReceived
  {
    if !HasRequiredFields(body) {
      return Failure(400, "Missing required fields: userAddress, protocol, tokenSymbol, collateralAmount, borrowAmount, txHash");
    }
    if !IsAddress(body.userAddress.value) {
      return Failure(400, "Invalid Ethereum address format");
    }
    if !IsTxHash(body.txHash.value) {
      return Failure(400, "Invalid transaction hash format");
    }
    var d := ServicePayload(body, fees);
    assert d.txHash == body.txHash && HasRequiredFields(d);
    var r := service.CreatePosition(d, now, users);
    if r.Err? {
      return Failure(500, "Failed to create position");
    }
    assert r.value in service.positions;
    reply := Success(201, r.value);
  }

  // ----- repayPosition -----

  /** 1000 * 60 * 60 * 24 * 365 milliseconds. */
  const MsPerYear: real := 31536000000.0
  /** `1 / (365 * 24)`: one hour, in years. */
  const HourInYears: real := 1.0 / 8760.0

  /** `Math.max(timeDiffMs / msPerYear, 1 / (365 * 24))`: at least one hour
      is always charged. */
  function EffectiveYears(elapsedMs: int): (years: real)
    ensures years >= HourInYears
    ensures years >= elapsedMs as real / MsPerYear
    ensures years == HourInYears || years == elapsedMs as real / MsPerYear
  {
    var y := elapsedMs as real / MsPerYear;
    if y > HourInYears then y else HourInYears
  }

  datatype RepayQuote = RepayQuote(accruedInterest: real, serviceFee: real, totalDue: real)

  /** The quote for repaying `principal` at `apyRate` (a fraction per year)
      after `elapsedMs`, with a service fee of `feeRate` of the principal. */
  function Quote(principal: real, apyRate: real, elapsedMs: int, feeRate: real): (q: RepayQuote)
    ensures q.totalDue == principal + q.accruedInterest + q.serviceFee
    ensures q.accruedInterest == principal * apyRate * EffectiveYears(elapsedMs)
    ensures q.serviceFee == principal * feeRate
  {
    var interest := principal * apyRate * EffectiveYears(elapsedMs);
    var fee := principal * feeRate;
    RepayQuote(interest, fee, principal + interest + fee)
  }

  /** With non-negative rates the borrower owes at least the principal plus
      one hour of interest, and never less than the principal. */
  lemma QuoteBounds(principal: real, apyRate: real, elapsedMs: int, feeRate: real)
    requires principal >= 0.0 && apyRate >= 0.0 && feeRate >= 0.0
    ensures Quote(principal, apyRate, elapsedMs, feeRate).accruedInterest >= principal * apyRate * HourInYears
    ensures Quote(principal, apyRate, elapsedMs, feeRate).totalDue >= principal + principal * apyRate * HourInYears
    ensures Quote(principal, apyRate, elapsedMs, feeRate).totalDue >= principal
  {
    var q := Quote(principal, apyRate, elapsedMs, feeRate);
    var pa := principal * apyRate;
    assert pa >= 0.0;
    var years := EffectiveYears(elapsedMs);
    assert pa * years - pa * HourInYears == pa * (years - HourInYears);
    assert pa * (years - HourInYears) >= 0.0;
    assert pa * HourInYears >= 0.0;
    assert principal * feeRate >= 0.0;
  }

  /** What the repay reply reports. */
  datatype RepayReceipt = RepayReceipt(repaidAmount: real, collateralReleased: real)

  /** The quote for an active record at time `now`; `percentOf` is
      `parseFloat` of the stored APY string with its '%' removed. */
  function QuoteFor(p: Position, fees: seq<FeeService>, now: int, percentOf: string -> real): RepayQuote {
    Quote(p.borrowAmount, percentOf(p.apy) / 100.0, now - p.createdAt,
          FeeRate(FindActiveFee(fees, LoanRepayment)))
  }

  /** `repayPosition`: 404 for an unknown id, 400 for a record that is not
      active, otherwise the record becomes repaid at `now` and the reply
      carries the total due. The other fields the handler assigns
      (`repayTxHash`, `finalInterestPaid`, `serviceFeePaid`,
      `feeRecipient`) are not in the schema and are not stored. */
  method RepayPosition(service: PositionService, fees: seq<FeeService>, id: PositionId,
                       now: int, percentOf: string -> real)
    returns (reply: Reply<RepayReceipt>)
    requires service.Valid()
    modifies service
    ensures service.Valid() && service.txIndex == old(service.txIndex)
    ensures id >= |old(service.positions)| ==>
      reply == Failure(404, "Position not found") && service.positions == old(service.positions)
    ensures id < |old(service.positions)| && old(service.positions)[id].status != Active ==>
      reply == Failure(400, "Position is not active") && service.positions == old(service.positions)
    ensures id < |old(service.positions)| && old(service.positions)[id].status == Active ==>
      var p := old(service.positions)[id];
      && service.positions == old(service.positions)[id := p.(status := Repaid, repaidAt := Some(now))]
      && reply == Success(200, RepayReceipt(QuoteFor(p, fees, now, percentOf).totalDue, p.collateralAmount))
    ensures reply.Success? ==> id < |service.positions| && service.positions[id].status == Repaid
  {
    if id >= |service.positions| {
      return Failure(404, "Position not found");
    }
    var p := service.positions[id];
    if p.status != Active {
      return Failure(400, "Position is not active");
    }
    var quote := QuoteFor(p, fees, now, percentOf);
    var q := p.(status := Repaid, repaidAt := Some(now));
    service.StoredAt(id);
    var saved := service.Save(q);
    reply := Success(200, RepayReceipt(quote.totalDue, p.collateralAmount));
  }

  // ----- getFeesConfig -----

  /** One entry of the fee configuration map. */
  datatype FeeEntry = FeeEntry(percentage: real, recipient: string)

  /** `fees.reduce((acc, fee) => { acc[fee.type] = ...; return acc }, {})`:
      a later record of the same type overwrites an earlier one. */
  function ConfigMap(fees: seq<FeeService>): (m: map<FeeType, FeeEntry>)
    ensures forall t :: t in m <==> exists f :: f in fees && f.feeType == t
    ensures forall t :: t in m ==>
      exists f :: f in fees && f.feeType == t && m[t] == FeeEntry(f.percentage, f.recipientAddress)
  {
    if fees == [] then map[]
    else
      var last := fees[|fees| - 1];
      var prefix := fees[..|fees| - 1];
      assert fees == prefix + [last];
      ConfigMap(prefix)[last.feeType := FeeEntry(last.percentage, last.recipientAddress)]
  }

  predicate IsActiveFee(f: FeeService) {
    f.isActive
  }

  /** `getFeesConfig`: the map over the active records. */
  function FeesConfig(fees: seq<FeeService>): (m: map<FeeType, FeeEntry>)
    ensures forall t :: t in m <==> exists f :: f in fees && f.isActive && f.feeType == t
  {
    ConfigMap(Select(fees, IsActiveFee))
  }

  /** Under the unique index on the fee type, the map shows exactly the
      record the origination and repayment lookups charge. */
  lemma FeesConfigAgreesWithLookup(fees: seq<FeeService>, t: FeeType)
    requires UniqueTypes(fees)
    ensures t in FeesConfig(fees) <==> FindActiveFee(fees, t).Some?
    ensures t in FeesConfig(fees) ==>
      FeesConfig(fees)[t] == FeeEntry(FindActiveFee(fees, t).value.percentage,
                                      FindActiveFee(fees, t).value.recipientAddress)
  {
    var m := FeesConfig(fees);
    if t in m {
      var active := Select(fees, IsActiveFee);
      assert m == ConfigMap(active);
      var f :| f in active && f.feeType == t && m[t] == FeeEntry(f.percentage, f.recipientAddress);
      FindActiveFeeIsUnique(fees, f);
    }
  }

  // ----- getUserPositions / getPositionById -----

  /** `getUserPositions`: 400 for a missing or malformed address; otherwise
      the service's newest-first listing under the filters that were sent. */
  function GetUserPositions(service: PositionService, address: Option<string>,
                            status: Option<string>, protocol: Option<string>)
    : (reply: Reply<seq<Position>>)
    reads service
    ensures reply.Failure? <==> !Present(address) || !IsAddress(address.value)
    ensures reply.Failure? ==> reply.status == 400
    ensures reply.Success? ==> reply.status == 200
    ensures reply.Success? ==>
      forall p :: p in reply.data <==>
        p in service.positions && MatchesQuery(p, ToLower(address.value), status, protocol)
    ensures reply.Success? ==>
      forall p ::
        multiset(reply.data)[p] == if MatchesQuery(p, ToLower(address.value), status, protocol) then multiset(service.positions)[p] else 0
    ensures reply.Success? ==>
      forall i, j :: 0 <= i < j < |reply.data| ==> reply.data[i].createdAt >= reply.data[j].createdAt
  {
    if !Present(address) then Failure(400, "Address is required")
    else if !IsAddress(address.value) then Failure(400, "Invalid Ethereum address format")
    else Success(200, service.GetUserPositions(address.value, status, protocol))
  }

  /** `getPositionById`: 400 without an id, 404 when the service reports it
      not found, 200 with the record otherwise. */
  function GetPositionById(service: PositionService, id: Option<PositionId>): (reply: Reply<Position>)
    reads service
    ensures id.None? ==> reply.Failure? && reply.status == 400
    ensures id.Some? && id.value >= |service.positions| ==> reply == Failure(404, "Position not found")
    ensures id.Some? && id.value < |service.positions| ==> reply == Success(200, service.positions[id.value])
  {
    if id.None? then Failure(400, "Position ID is required")
    else
      match service.GetPositionById(id.value)
      case Ok(p) => Success(200, p)
      case Err(_) => Failure(404, "Position not found")
  }

  // ----- getOpportunities -----

  /** A cached rate: one per (protocol, token) pair. */
  datatype Opportunity = Opportunity(
    protocol: string,
    token: string,
    apy: string,
    risk: string,
    tvl: string,
    maxLtv: real,
    isActive: bool,
    lastUpdated: int)

  /** A live rate from the rates service. */
  datatype LiveRate = LiveRate(protocol: string, apy: string, risk: string, tvl: string)

  /** What the handler answers with: the cached records or the live rates. */
  datatype Served = FromCache(records: seq<Opportunity>) | FromLive(rates: seq<LiveRate>)

  /** Five minutes, in milliseconds. */
  const FreshForMs: int := 300000

  /** `.sort({ lastUpdated: -1 })` as an ascending key. */
  function NewestUpdateFirst(o: Opportunity): real {
    -(o.lastUpdated as real)
  }

  /** `Opportunity.find({ token, isActive: true }).sort({ lastUpdated: -1 })`. */
  function ActiveFor(records: seq<Opportunity>, token: string): (r: seq<Opportunity>)
    ensures forall o :: o in r <==> o in records && o.token == token && o.isActive
    ensures forall i, j :: 0 <= i < j < |r| ==> r[i].lastUpdated >= r[j].lastUpdated
    ensures forall o :: multiset(r)[o] == if o.token == token && o.isActive then multiset(records)[o] else 0
  {
    var selected := Select(records, (o: Opportunity) => o.token == token && o.isActive);
    var sorted := SortBy(selected, NewestUpdateFirst);
    SortByKeepsMembers(selected, NewestUpdateFirst);
    SelectMultiplicity(records, (o: Opportunity) => o.token == token && o.isActive);
    assert forall i, j :: 0 <= i < j < |sorted| ==>
      NewestUpdateFirst(sorted[i]) <= NewestUpdateFirst(sorted[j]);
    sorted
  }

  /** `isDataFresh`: some record came back and the newest is younger than
      five minutes. */
  predicate IsFresh(newestFirst: seq<Opportunity>, now: int) {
    |newestFirst| > 0 && now - newestFirst[0].lastUpdated < FreshForMs
  }

  /** The cache is served exactly when some active record for the token was
      updated less than five minutes ago. */
  lemma FreshIffRecentRecord(records: seq<Opportunity>, token: string, now: int)
    ensures IsFresh(ActiveFor(records, token), now) <==>
      exists o :: o in records && o.token == token && o.isActive && now - o.lastUpdated < FreshForMs
  {
    var r := ActiveFor(records, token);
    if o :| o in records && o.token == token && o.isActive && now - o.lastUpdated < FreshForMs {
      assert o in r;
      var k :| 0 <= k < |r| && r[k] == o;
      assert r[0].lastUpdated >= r[k].lastUpdated;
    }
    if IsFresh(r, now) {
      assert r[0] in r;
    }
  }

  /** The index of the record for (`protocol`, `token`), if any. */
  function Slot(records: seq<Opportunity>, protocol: string, token: string): (k: Option<nat>)
    ensures k.Some? ==> k.value < |records| && records[k.value].protocol == protocol && records[k.value].token == token
    ensures k.None? ==> forall i :: 0 <= i < |records| ==> !(records[i].protocol == protocol && records[i].token == token)
  {
    if records == [] then None
    else if records[0].protocol == protocol && records[0].token == token then Some(0)
    else
      match Slot(records[1..], protocol, token)
      case None => None
      case Some(k) => Some(k + 1)
  }

  /** The unique index on (protocol, token). */
  predicate UniquePairs(records: seq<Opportunity>) {
    forall i, j :: 0 <= i < j < |records| ==>
      !(records[i].protocol == records[j].protocol && records[i].token == records[j].token)
  }

  /** One `updateOne` with `upsert: true`: `$set` the rate fields and the
      time on the matching record, or insert a new record with the schema's
      defaults. */
  function Upsert(records: seq<Opportunity>, token: string, rate: LiveRate, now: int): (r: seq<Opportunity>)
    ensures UniquePairs(records) ==> UniquePairs(r)
    ensures exists i ::
      0 <= i < |r| && r[i].protocol == rate.protocol && r[i].token == token
      && r[i].apy == rate.apy && r[i].risk == rate.risk && r[i].tvl == rate.tvl && r[i].lastUpdated == now
    ensures forall i ::
      0 <= i < |records| && !(records[i].protocol == rate.protocol && records[i].token == token)
      ==> i < |r| && r[i] == records[i]
    ensures forall i ::
      0 <= i < |records| && records[i].protocol == rate.protocol && records[i].token == token
      ==> i < |r| && r[i].maxLtv == records[i].maxLtv && r[i].isActive == records[i].isActive
    ensures |r| == |records| + (if Slot(records, rate.protocol, token).None? then 1 else 0)
    ensures Slot(records, rate.protocol, token).None? ==> r[|records|].maxLtv == DefaultLtv && r[|records|].isActive
  {
    match Slot(records, rate.protocol, token)
    case Some(k) =>
      var r := records[k := records[k].(apy := rate.apy, risk := rate.risk, tvl := rate.tvl, lastUpdated := now)];
      assert r[k].protocol == rate.protocol && r[k].token == token;
      r
    case None =>
      var r := records + [Opportunity(rate.protocol, token, rate.apy, rate.risk, rate.tvl, DefaultLtv, true, now)];
      assert r[|records|].protocol == rate.protocol;
      r
  }

  /** The whole `bulkWrite`, one operation after the other. */
  function UpsertAll(records: seq<Opportunity>, token: string, rates: seq<LiveRate>, now: int)
    : (r: seq<Opportunity>)
    ensures UniquePairs(records) ==> UniquePairs(r)
    ensures |records| <= |r| <= |records| + |rates|
    ensures forall i ::
      0 <= i < |records| && (forall q :: q in rates ==> !(records[i].protocol == q.protocol && records[i].token == token))
      ==> r[i] == records[i]
  {
    if rates == [] then records
    else
      var prefix := rates[..|rates| - 1];
      var before := UpsertAll(records, token, prefix, now);
      assert forall q :: q in prefix ==> q in rates;
      Upsert(before, token, rates[|rates| - 1], now)
  }

  /** One more rate in the bulk write is one more upsert. */
  lemma UpsertAllStep(records: seq<Opportunity>, token: string, rates: seq<LiveRate>, k: nat, now: int)
    requires k < |rates|
    ensures UpsertAll(records, token, rates[..k + 1], now)
      == Upsert(UpsertAll(records, token, rates[..k], now), token, rates[k], now)
  {
    assert rates[..k + 1][..k] == rates[..k];
  }

  /** The index of the last of `rates` that names `protocol`: the rate
      whose `$set` the bulk write applies after all the others for that
      pair. */
  function LastFor(rates: seq<LiveRate>, protocol: string): (k: Option<nat>)
    ensures k.Some? ==> k.value < |rates| && rates[k.value].protocol == protocol
    ensures k.Some? ==> forall j :: k.value < j < |rates| ==> rates[j].protocol != protocol
    ensures k.None? ==> forall j :: 0 <= j < |rates| ==> rates[j].protocol != protocol
  {
    if rates == [] then None
    else if rates[|rates| - 1].protocol == protocol then Some(|rates| - 1)
    else LastFor(rates[..|rates| - 1], protocol)
  }

  /** After the refresh every live rate's protocol has a record for the
      token stamped with the refresh time and carrying the apy, risk and
      tvl of the last live rate for that protocol. */
  lemma {:induction false} UpsertAllStampsEveryRate(records: seq<Opportunity>, token: string,
                                                     rates: seq<LiveRate>, now: int, rate: LiveRate)
    requires rate in rates
    ensures LastFor(rates, rate.protocol).Some?
    ensures exists o ::
      o in UpsertAll(records, token, rates, now)
      && o.protocol == rate.protocol && o.token == token && o.lastUpdated == now
      && o.apy == rates[LastFor(rates, rate.protocol).value].apy
      && o.risk == rates[LastFor(rates, rate.protocol).value].risk
      && o.tvl == rates[LastFor(rates, rate.protocol).value].tvl
  {
    var last := rates[|rates| - 1];
    var prefix := rates[..|rates| - 1];
    assert rates == prefix + [last];
    var before := UpsertAll(records, token, prefix, now);
    var after := UpsertAll(records, token, rates, now);
    assert after == Upsert(before, token, last, now);
    if rate.protocol == last.protocol {
      assert LastFor(rates, rate.protocol) == Some(|rates| - 1);
      var i :| 0 <= i < |after| && after[i].protocol == last.protocol && after[i].token == token
        && after[i].apy == last.apy && after[i].risk == last.risk && after[i].tvl == last.tvl
        && after[i].lastUpdated == now;
      assert after[i] in after;
    } else {
      assert rate in prefix;
      assert LastFor(rates, rate.protocol) == LastFor(prefix, rate.protocol);
      UpsertAllStampsEveryRate(records, token, prefix, now, rate);
      var l := prefix[LastFor(prefix, rate.protocol).value];
      assert l == rates[LastFor(rates, rate.protocol).value];
      var o :| o in before && o.protocol == rate.protocol && o.token == token && o.lastUpdated == now
        && o.apy == l.apy && o.risk == l.risk && o.tvl == l.tvl;
      var i :| 0 <= i < |before| && before[i] == o;
      assert after[i] == o;
    }
  }

  /** With one live rate per protocol, each pair ends with its own rate's
      values. */
  lemma DistinctRatesStampOwnValues(records: seq<Opportunity>, token: string,
                                    rates: seq<LiveRate>, now: int, k: nat)
    requires k < |rates|
    requires forall i, j :: 0 <= i < j < |rates| ==> rates[i].protocol != rates[j].protocol
    ensures exists o ::
      o in UpsertAll(records, token, rates, now)
      && o.protocol == rates[k].protocol && o.token == token && o.lastUpdated == now
      && o.apy == rates[k].apy && o.risk == rates[k].risk && o.tvl == rates[k].tvl
  {
    UpsertAllStampsEveryRate(records, token, rates, now, rates[k]);
    assert LastFor(rates, rates[k].protocol) == Some(k);
  }

  /** The opportunities collection. */
  class OpportunityCache {
    var records: seq<Opportunity>

    ghost predicate Valid()
      reads this
    {
      UniquePairs(records)
    }

    constructor ()
      ensures Valid() && records == []
    {
      records := [];
    }

    /** `getOpportunities`: 400 without a token; the cached records when
      they are fresh; otherwise the live rates, written through to the cache
      first. */
    method GetOpportunities(token: Option<string>, live: seq<LiveRate>, now: int)
      returns (reply: Reply<Served>)
      requires Valid()
      modifies this
      ensures Valid()
      ensures !Present(token) ==> reply.Failure? && reply.status == 400 && records == old(records)
      ensures Present(token) && IsFresh(ActiveFor(old(records), token.value), now) ==>
        reply == Success(200, FromCache(ActiveFor(old(records), token.value))) && records == old(records)
      ensures Present(token) && !IsFresh(ActiveFor(old(records), token.value), now) ==>
        reply == Success(200, FromLive(live)) && records == UpsertAll(old(records), token.value, live, now)
    {
      if !Present(token) {
        return Failure(400, "Token parameter is required");
      }
      var t := token.value;
      var cached := ActiveFor(records, t);
      if IsFresh(cached, now) {
        return Success(200, FromCache(cached));
      }
      WriteThrough(t, live, now);
      reply := Success(200, FromLive(live));
    }

    /** The `bulkWrite` of the live rates, one upsert after the other. */
    method WriteThrough(token: string, live: seq<LiveRate>, now: int)
      requires Valid()
      modifies this
      ensures Valid()
      ensures records == UpsertAll(old(records), token, live, now)
    {
      var k := 0;
      while k < |live|
        invariant 0 <= k <= |live|
        invariant records == UpsertAll(old(records), token, live[..k], now)
        invariant Valid()
      {
        UpsertAllStep(old(records), token, live, k, now);
        records := Upsert(records, token, live[k], now);
        k := k + 1;
      }
      assert live[..|live|] == live;
    }
  }
}

=== FILE: position.dfy ===
/** One loan position: the record kept per loan, the health-factor formula,
    the "at risk" and "liquidatable" predicates and the two monitoring
    queries that list such positions worst first. */
module PositionModel {
  import opened Common
  import opened Queries

  type PositionId = nat

  /** The schema's enum is `active | repaid | liquidated | pending`; the
      liquidation bot also writes `closed`, which the enum does not list
      (see ListedInSchema). */
  datatype Status = Pending | Active | Repaid | Liquidated | Closed

  /** The string stored for each status, which status filters compare with. */
  function StatusName(s: Status): string {
    match s
    case Pending => "pending"
    case Active => "active"
    case Repaid => "repaid"
    case Liquidated => "liquidated"
    case Closed => "closed"
  }

  /** Money, amounts and ratios are exact reals; dates are milliseconds since
      the epoch. `protocol`, `tokenSymbol` and `network` are the strings the
      client sent, checked against the schema's enums on save. */
  datatype Position = Position(
    id: PositionId,
    userAddress: string,
    protocol: string,
    adapterAddress: string,
    tokenSymbol: string,
    tokenAddress: string,
    collateralAmount: real,
    collateralValueUSD: real,
    borrowAmount: real,
    platformFee: real,
    netReceived: real,
    apy: string,
    ltv: real,
    txHash: string,
    blockNumber: Option<int>,
    network: string,
    status: Status,
    healthFactor: real,
    repaidAt: Option<int>,
    repaymentTxHash: Option<string>,
    repaymentAmount: Option<real>,
    liquidatedAt: Option<int>,
    liquidationTxHash: Option<string>,
    createdAt: int)

  /** Debt may reach 80% of the collateral's value before liquidation. */
  const LiquidationThreshold: real := 0.80
  /** Below this health factor a position is at risk. */
  const AtRiskBelow: real := 1.2
  /** Below this health factor a position can be liquidated. */
  const LiquidatableBelow: real := 1.0
  const DefaultLtv: real := 0.70
  const DefaultNetwork: string := "sepolia"

  predicate IsProtocol(s: string) {
    s == "Uniswap" || s == "Aave" || s == "Lido"
  }

  predicate IsTokenSymbol(s: string) {
    s == "WETH" || s == "WBTC" || s == "ETH"
  }

  predicate IsNetwork(s: string) {
    s == "sepolia" || s == "mainnet" || s == "polygon" || s == "arbitrum"
  }

  /** The status enum exactly as the schema declares it. */
  predicate ListedInSchema(s: Status) {
    s != Closed
  }

  /** What `save()` accepts, with `closed` admitted as a status: required
      fields present, the address pattern, the enums, the non-negative
      amounts and an LTV in [0, 1]. */
  predicate SchemaValid(p: Position) {
    && IsAddress(p.userAddress)
    && IsProtocol(p.protocol)
    && p.adapterAddress != ""
    && IsTokenSymbol(p.tokenSymbol)
    && p.tokenAddress != ""
    && p.collateralAmount >= 0.0
    && p.collateralValueUSD >= 0.0
    && p.borrowAmount >= 0.0
    && p.platformFee >= 0.0
    && p.netReceived >= 0.0
    && p.apy != ""
    && 0.0 <= p.ltv <= 1.0
    && p.txHash != ""
    && IsNetwork(p.network)
    && (p.repaymentAmount.Some? ==> p.repaymentAmount.value >= 0.0)
  }

  /** What `save()` accepts with the schema's enum as written. */
  predicate SchemaValidAsWritten(p: Position) {
    SchemaValid(p) && ListedInSchema(p.status)
  }

  /** The schema's `lowercase: true` setters have run on every hex field. */
  predicate LowerCased(p: Position) {
    && IsLower(p.userAddress)
    && IsLower(p.adapterAddress)
    && IsLower(p.tokenAddress)
    && IsLower(p.txHash)
    && (p.repaymentTxHash.Some? ==> IsLower(p.repaymentTxHash.value))
    && (p.liquidationTxHash.Some? ==> IsLower(p.liquidationTxHash.value))
  }

  /** `calculateHealthFactor`: risk-adjusted collateral over debt. */
  function HealthFactor(collateralValueUSD: real, debt: real): (hf: real)
    requires debt != 0.0
    ensures hf * debt == collateralValueUSD * LiquidationThreshold
  {
    collateralValueUSD * LiquidationThreshold / debt
  }

  /** More collateral value never lowers the health factor. */
  lemma HealthFactorMonotone(v1: real, v2: real, debt: real)
    requires debt > 0.0 && v1 <= v2
    ensures HealthFactor(v1, debt) <= HealthFactor(v2, debt)
  {
    var h1, h2 := HealthFactor(v1, debt), HealthFactor(v2, debt);
    assert (h2 - h1) * debt == (v2 - v1) * LiquidationThreshold;
  }

  /** A position is liquidatable exactly when its risk-adjusted collateral is
      worth less than its debt. */
  lemma HealthFactorBelowOne(v: real, debt: real)
    requires debt > 0.0
    ensures HealthFactor(v, debt) < LiquidatableBelow <==> v * LiquidationThreshold < debt
  {
    var h := HealthFactor(v, debt);
    assert h * debt == v * LiquidationThreshold;
    assert h < 1.0 <==> h * debt < debt;
  }

  predicate IsAtRisk(p: Position) {
    p.healthFactor < AtRiskBelow
  }

  predicate CanBeLiquidated(p: Position) {
    p.healthFactor < LiquidatableBelow
  }

  lemma LiquidatableIsAtRisk(p: Position)
    ensures CanBeLiquidated(p) ==> IsAtRisk(p)
  {
  }

  /** The `totalDebt` virtual: the principal, with no interest accrued. */
  function TotalDebt(p: Position): (d: real)
    ensures d == p.borrowAmount
    ensures SchemaValid(p) ==> d >= 0.0
  {
    p.borrowAmount
  }

  predicate ActiveAtRisk(p: Position) {
    p.status == Active && IsAtRisk(p)
  }

  predicate ActiveLiquidatable(p: Position) {
    p.status == Active && CanBeLiquidated(p)
  }

  /** The sort key of both monitoring queries. */
  function HealthKey(p: Position): real {
    p.healthFactor
  }

  /** `findAtRisk`: the active positions with health factor below 1.2, worst
      first. */
  function FindAtRisk(s: seq<Position>): (r: seq<Position>)
    ensures forall p :: p in r <==> p in s && p.status == Active && p.healthFactor < AtRiskBelow
    ensures SortedBy(r, HealthKey)
    ensures multiset(r) == multiset(Select(s, ActiveAtRisk))
    ensures |r| == |Select(s, ActiveAtRisk)|
  {
    var selected := Select(s, ActiveAtRisk);
    SortByKeepsMembers(selected, HealthKey);
    SortBy(selected, HealthKey)
  }

  /** `findLiquidatable`: the active positions with health factor below 1.0,
      worst first. */
  function FindLiquidatable(s: seq<Position>): (r: seq<Position>)
    ensures forall p :: p in r <==> p in s && p.status == Active && p.healthFactor < LiquidatableBelow
    ensures SortedBy(r, HealthKey)
    ensures multiset(r) == multiset(Select(s, ActiveLiquidatable))
    ensures |r| == |Select(s, ActiveLiquidatable)|
  {
    var selected := Select(s, ActiveLiquidatable);
    SortByKeepsMembers(selected, HealthKey);
    SortBy(selected, HealthKey)
  }

  /** Every liquidatable position is also listed as at risk, as often. */
  lemma LiquidatableAmongAtRisk(s: seq<Position>)
    ensures multiset(FindLiquidatable(s)) <= multiset(FindAtRisk(s))
    ensures |FindLiquidatable(s)| <= |FindAtRisk(s)|
  {
    SelectMonotone(s, ActiveLiquidatable, ActiveAtRisk);
  }

  /** The head of the liquidatable list is the worst liquidatable position. */
  lemma WorstFirst(s: seq<Position>, p: Position)
    requires p in s && ActiveLiquidatable(p)
    ensures FindLiquidatable(s) != []
    ensures FindLiquidatable(s)[0].healthFactor <= p.healthFactor
  {
    var r := FindLiquidatable(s);
    assert p in r;
    var k :| 0 <= k < |r| && r[k] == p;
    if k > 0 {
      assert HealthKey(r[0]) <= HealthKey(r[k]);
    }
  }

  /** Status moves only forward: from active to a terminal status. */
  predicate AllowedTransition(from: Status, to: Status) {
    from == to || (from == Active && (to == Repaid || to == Liquidated || to == Closed))
  }
}

=== FILE: position_service.dfy ===
/** The positions collection and the service over it: creation idempotent
    on the transaction hash, health-factor refresh, repayment, per-user
    listing, the platform counters and the user statistics kept beside them. */
module PositionServiceModel {
  import opened Common
  import opened Queries
  import opened PositionModel
  import opened UserModel

  /** The fields a caller hands to `createPosition`; absent ones are None. */
  datatype PositionData = PositionData(
    userAddress: Option<string>,
    protocol: Option<string>,
    adapterAddress: Option<string>,
    tokenSymbol: Option<string>,
    tokenAddress: Option<string>,
    collateralAmount: Option<real>,
    collateralValueUSD: Option<real>,
    borrowAmount: Option<real>,
    platformFee: Option<real>,
    netReceived: Option<real>,
    apy: Option<string>,
    ltv: Option<real>,
    txHash: Option<string>,
    blockNumber: Option<int>,
    network: Option<string>)

  /** The errors the service throws: its own messages ("Missing required
      fields", "not found", "not active"), a validation failure on save, and
      the TypeError of calling `toLowerCase` on an absent field. */
  datatype ServiceError = MissingFields | NotFound | NotActive | ValidationFailed | TypeError

  datatype Result<T> = Ok(value: T) | Err(error: ServiceError)

  /** The first guard of `createPosition`. */
  predicate HasRequiredFields(d: PositionData) {
    Present(d.userAddress) && Present(d.protocol) && Present(d.tokenSymbol) &&
    NonZero(d.collateralAmount) && NonZero(d.borrowAmount) && Present(d.txHash)
  }

  /** What the schema demands of a payload, stated on the fields the caller
      hands over: every field the record needs is there, and each value
      (after lower-casing and the `||` defaults) passes its validator. */
  predicate ValidPayload(d: PositionData)
    requires HasRequiredFields(d)
  {
    && d.adapterAddress.Some? && d.tokenAddress.Some? && d.collateralValueUSD.Some?
    && d.platformFee.Some? && d.netReceived.Some? && d.apy.Some?
    && IsAddress(ToLower(d.userAddress.value))
    && IsProtocol(d.protocol.value)
    && d.adapterAddress.value != ""
    && IsTokenSymbol(d.tokenSymbol.value)
    && d.tokenAddress.value != ""
    && d.collateralAmount.value >= 0.0
    && d.collateralValueUSD.value >= 0.0
    && d.borrowAmount.value >= 0.0
    && d.platformFee.value >= 0.0
    && d.netReceived.value >= 0.0
    && d.apy.value != ""
    && 0.0 <= (if NonZero(d.ltv) then d.ltv.value else DefaultLtv) <= 1.0
    && IsNetwork(if Present(d.network) then d.network.value else DefaultNetwork)
  }

  /** The record `createPosition` builds and saves as position `id` at time
      `now`, or the error the construction or the save raises. */
  function BuildPosition(d: PositionData, id: PositionId, now: int): (r: Result<Position>)
    requires HasRequiredFields(d)
    ensures r.Ok? ==> SchemaValid(r.value) && LowerCased(r.value)
    ensures r.Ok? ==> r.value.id == id && r.value.createdAt == now
    ensures r.Ok? ==> r.value.status == Active
    ensures r.Ok? <==> ValidPayload(d)
    ensures r.Ok? ==> r.value.borrowAmount == d.borrowAmount.value && r.value.borrowAmount > 0.0
    ensures r.Ok? ==> && r.value.protocol == d.protocol.value && r.value.tokenSymbol == d.tokenSymbol.value
                      && r.value.collateralAmount == d.collateralAmount.value
                      && r.value.collateralValueUSD == d.collateralValueUSD.value
                      && r.value.apy == d.apy.value && r.value.blockNumber == d.blockNumber
    ensures r.Ok? ==> r.value.repaidAt.None? && r.value.repaymentTxHash.None? && r.value.repaymentAmount.None?
                      && r.value.liquidatedAt.None? && r.value.liquidationTxHash.None?
    ensures r.Ok? ==> r.value.healthFactor * r.value.borrowAmount
                      == r.value.collateralValueUSD * LiquidationThreshold
    ensures r.Ok? ==> d.adapterAddress.Some? && d.tokenAddress.Some? && d.platformFee.Some? && d.netReceived.Some?
    ensures r.Ok? ==> r.value.platformFee == d.platformFee.value && r.value.netReceived == d.netReceived.value
    ensures r.Ok? ==> r.value.userAddress == ToLower(d.userAddress.value)
                      && r.value.txHash == ToLower(d.txHash.value)
                      && r.value.adapterAddress == ToLower(d.adapterAddress.value)
                      && r.value.tokenAddress == ToLower(d.tokenAddress.value)
    ensures r.Ok? ==> r.value.ltv == (if NonZero(d.ltv) then d.ltv.value else DefaultLtv)
    ensures r.Ok? ==> r.value.network == (if Present(d.network) then d.network.value else DefaultNetwork)
    ensures d.adapterAddress.None? || d.tokenAddress.None? ==> r == Err(TypeError)
    ensures r.Err? && d.adapterAddress.Some? && d.tokenAddress.Some? ==> r.error == ValidationFailed
  {
    if d.adapterAddress.None? || d.tokenAddress.None? then Err(TypeError)
    else if d.collateralValueUSD.None? || d.platformFee.None? || d.netReceived.None? || d.apy.None? then
      Err(ValidationFailed)
    else
      var borrow := d.borrowAmount.value;
      var p := Position(
        id, ToLower(d.userAddress.value), d.protocol.value, ToLower(d.adapterAddress.value),
        d.tokenSymbol.value, ToLower(d.tokenAddress.value), d.collateralAmount.value,
        d.collateralValueUSD.value, borrow, d.platformFee.value, d.netReceived.value,
        d.apy.value, if NonZero(d.ltv) then d.ltv.value else DefaultLtv,
        ToLower(d.txHash.value), d.blockNumber,
        if Present(d.network) then d.network.value else DefaultNetwork,
        Active, HealthFactor(d.collateralValueUSD.value, borrow),
        None, None, None, None, None, now);
      ToLowerIsLower(d.userAddress.value);
      ToLowerIsLower(d.adapterAddress.value);
      ToLowerIsLower(d.tokenAddress.value);
      ToLowerIsLower(d.txHash.value);
      if SchemaValid(p) then Ok(p) else Err(ValidationFailed)
  }

  /** A record as the collection holds it: in its slot, passing validation,
      lower-cased, with a positive principal (creation refuses a zero one). */
  predicate Stored(p: Position, id: PositionId) {
    p.id == id && SchemaValid(p) && LowerCased(p) && p.borrowAmount > 0.0
  }

  /** The fields no operation reassigns once the record exists. */
  predicate SameIdentity(p: Position, q: Position) {
    && p.id == q.id && p.txHash == q.txHash && p.userAddress == q.userAddress
    && p.borrowAmount == q.borrowAmount && p.createdAt == q.createdAt
  }

  /** The `{ userAddress, status?, protocol? }` query of `getUserPositions`. */
  predicate MatchesQuery(p: Position, address: string, status: Option<string>, protocol: Option<string>) {
    && p.userAddress == address
    && (Present(status) ==> StatusName(p.status) == status.value)
    && (Present(protocol) ==> p.protocol == protocol.value)
  }

  /** `.sort({ createdAt: -1 })` as an ascending sort key. */
  function NewestFirst(p: Position): real {
    -(p.createdAt as real)
  }

  /** The six figures of `getPlatformStats`. */
  datatype PlatformStats = PlatformStats(
    totalPositions: nat,
    activePositions: nat,
    totalBorrowed: real,
    totalRepaid: real,
    atRiskCount: nat,
    liquidatableCount: nat)

  predicate IsActive(p: Position) {
    p.status == Active
  }

  predicate IsRepaid(p: Position) {
    p.status == Repaid
  }

  function BorrowAmount(p: Position): real {
    p.borrowAmount
  }

  /** `$sum: '$repaymentAmount'` skips records without the field. */
  function RepaymentAmount(p: Position): real {
    if p.repaymentAmount.Some? then p.repaymentAmount.value else 0.0
  }

  /** Validation keeps every principal and every repayment non-negative, so
      both sums are. */
  lemma SumsNonNegative(s: seq<Position>)
    requires forall p :: p in s ==> SchemaValid(p)
    ensures Sum(s, BorrowAmount) >= 0.0
    ensures Sum(Select(s, IsRepaid), RepaymentAmount) >= 0.0
  {
    var repaid := Select(s, IsRepaid);
    forall i | 0 <= i < |s|
      ensures BorrowAmount(s[i]) >= 0.0
    {
      assert SchemaValid(s[i]);
    }
    SumNonNegative(s, BorrowAmount);
    forall i | 0 <= i < |repaid|
      ensures RepaymentAmount(repaid[i]) >= 0.0
    {
      assert SchemaValid(repaid[i]);
    }
    SumNonNegative(repaid, RepaymentAmount);
  }

  /** The counts nest: liquidatable among at risk among active among all,
      and the sums are non-negative. */
  function Stats(s: seq<Position>): (st: PlatformStats)
    ensures st.liquidatableCount <= st.atRiskCount <= st.activePositions <= st.totalPositions == |s|
    ensures st.atRiskCount == |FindAtRisk(s)| && st.liquidatableCount == |FindLiquidatable(s)|
    ensures st.activePositions == |Select(s, IsActive)|
    ensures st.totalBorrowed == Sum(s, BorrowAmount)
    ensures st.totalRepaid == Sum(Select(s, IsRepaid), RepaymentAmount)
    ensures (forall p :: p in s ==> SchemaValid(p)) ==> st.totalBorrowed >= 0.0 && st.totalRepaid >= 0.0
  {
    var repaid := Select(s, IsRepaid);
    SelectMonotone(s, ActiveLiquidatable, ActiveAtRisk);
    SelectMonotone(s, ActiveAtRisk, IsActive);
    assert (forall p :: p in s ==> SchemaValid(p)) ==>
      Sum(s, BorrowAmount) >= 0.0 && Sum(repaid, RepaymentAmount) >= 0.0 by {
      if forall p :: p in s ==> SchemaValid(p) {
        SumsNonNegative(s);
      }
    }
    PlatformStats(
      |s|,
      |Select(s, IsActive)|,
      Sum(s, BorrowAmount),
      Sum(repaid, RepaymentAmount),
      |Select(s, ActiveAtRisk)|,
      |Select(s, ActiveLiquidatable)|)
  }

  class PositionService {
    var positions: seq<Position>
    /** The unique index on the lower-cased transaction hash. */
    var txIndex: map<string, PositionId>

    ghost predicate Valid()
      reads this
    {
      && (forall i {:trigger Stored(positions[i], i)} :: 0 <= i < |positions| ==> Stored(positions[i], i))
      && (forall t :: t in txIndex ==> txIndex[t] < |positions| && positions[txIndex[t]].txHash == t)
      && (forall i :: 0 <= i < |positions| ==> positions[i].txHash in txIndex && txIndex[positions[i].txHash] == i)
    }

    constructor ()
      ensures Valid() && positions == [] && txIndex == map[]
    {
      positions := [];
      txIndex := map[];
    }

    /** The record in slot `i` is stored as it should be. */
    lemma StoredAt(i: PositionId)
      requires Valid() && i < |positions|
      ensures Stored(positions[i], i)
    {
    }

    /** Every record passes validation. */
    lemma AllSchemaValid()
      requires Valid()
      ensures forall p :: p in positions ==> SchemaValid(p)
    {
      forall p | p in positions
        ensures SchemaValid(p)
      {
        var i :| 0 <= i < |positions| && positions[i] == p;
        StoredAt(i);
      }
    }

    /** No two records share a transaction hash. */
    lemma TxHashesUnique(i: PositionId, j: PositionId)
      requires Valid() && i < |positions| && j < |positions| && i != j
      ensures positions[i].txHash != positions[j].txHash
    {
      assert txIndex[positions[i].txHash] == i;
      assert txIndex[positions[j].txHash] == j;
    }

    /** `position.save()` on an existing record: validation decides. */
    method Save(q: Position) returns (saved: bool)
      requires Valid() && q.id < |positions|
      requires SameIdentity(positions[q.id], q) && LowerCased(q)
      modifies this
      ensures Valid() && txIndex == old(txIndex)
      ensures saved == SchemaValid(q)
      ensures positions == if saved then old(positions)[q.id := q] else old(positions)
    {
      StoredAt(q.id);
      saved := SchemaValid(q);
      if saved {
        positions := positions[q.id := q];
      }
    }

    /** `createPosition`. */
    method CreatePosition(d: PositionData, now: int, users: UserRegistry) returns (r: Result<Position>)
      requires Valid() && users.Valid()
      modifies this, users, users.byAddress.Values
      ensures Valid() && users.Valid()
      ensures !HasRequiredFields(d) ==>
        r == Err(MissingFields) && positions == old(positions) && users.Stats() == old(users.Stats())
      ensures HasRequiredFields(d) && ToLower(d.txHash.value) in old(txIndex) ==>
        r == Ok(old(positions)[old(txIndex)[ToLower(d.txHash.value)]])
        && positions == old(positions) && users.Stats() == old(users.Stats())
      ensures HasRequiredFields(d) && ToLower(d.txHash.value) !in old(txIndex) ==>
        r == BuildPosition(d, |old(positions)|, now)
        && positions == (if r.Ok? then old(positions) + [r.value] else old(positions))
        && users.Stats() == (if r.Ok? then UserStatsAfterCreate(old(users.Stats()), r.value) else old(users.Stats()))
      ensures r.Ok? ==> r.value in positions
    {
      if !HasRequiredFields(d) {
        return Err(MissingFields);
      }
      var tx := ToLower(d.txHash.value);
      if tx in txIndex {
        return Ok(positions[txIndex[tx]]);
      }
      r := BuildPosition(d, |positions|, now);
      if r.Ok? {
        var p := r.value;
        ghost var before := users.Stats();
        Insert(p);
        assert users.Stats() == before;
        UpdateUserStats(users, p.userAddress, p.borrowAmount, now);
        assert users.Stats() == UserStatsAfterCreate(before, p);
      }
    }

    /** Saving a new record under the next id and indexing its hash. */
    method Insert(p: Position)
      requires Valid() && Stored(p, |positions|) && p.txHash !in txIndex
      modifies this
      ensures Valid()
      ensures positions == old(positions) + [p] && txIndex == old(txIndex)[p.txHash := p.id]
    {
      positions := positions + [p];
      txIndex := txIndex[p.txHash := p.id];
    }

    /** `updateUserStats`: find or create the user, then count the position. */
    method UpdateUserStats(users: UserRegistry, userAddress: string, borrowAmount: real, now: int)
      requires users.Valid() && IsAddress(userAddress) && IsLower(userAddress) && borrowAmount >= 0.0
      modifies users, users.byAddress.Values
      ensures users.Valid()
      ensures users.Stats() == old(users.Stats())[userAddress :=
        AfterIncrement(if userAddress in old(users.Stats()) then old(users.Stats())[userAddress] else FreshStats, borrowAmount)]
    {
      if userAddress !in users.byAddress {
        var _ := users.Create(userAddress, now);
      }
      users.IncrementPositions(userAddress, borrowAmount);
    }

    /** `getUserPositions`: the caller's records matching the optional
      filters, newest first. */
    function GetUserPositions(address: string, status: Option<string>, protocol: Option<string>): (r: seq<Position>)
      reads this
      ensures forall p :: p in r <==> p in positions && MatchesQuery(p, ToLower(address), status, protocol)
      ensures forall i, j :: 0 <= i < j < |r| ==> r[i].createdAt >= r[j].createdAt
      ensures forall p ::
        multiset(r)[p] == if MatchesQuery(p, ToLower(address), status, protocol) then multiset(positions)[p] else 0
    {
      QueryUser(positions, ToLower(address), status, protocol)
    }

    /** `getPositionById`. */
    function GetPositionById(id: PositionId): (r: Result<Position>)
      reads this
      ensures r.Ok? <==> id < |positions|
      ensures r.Ok? ==> r.value == positions[id]
      ensures r.Err? ==> r.error == NotFound
    {
      if id < |positions| then Ok(positions[id]) else Err(NotFound)
    }

    /** `updateHealthFactor`: re-price the collateral and recompute the
      health factor from it; any status is refreshed. */
    method UpdateHealthFactor(id: PositionId, collateralValueUSD: real) returns (r: Result<Position>)
      requires Valid()
      modifies this
      ensures Valid() && txIndex == old(txIndex)
      ensures id >= |old(positions)| ==> r == Err(NotFound) && positions == old(positions)
      ensures id < |old(positions)| && collateralValueUSD < 0.0 ==>
        r == Err(ValidationFailed) && positions == old(positions)
      ensures id < |old(positions)| && collateralValueUSD >= 0.0 ==>
        && Stored(old(positions)[id], id)
        && r.Ok?
        && r.value == old(positions)[id].(
             healthFactor := HealthFactor(collateralValueUSD, old(positions)[id].borrowAmount),
             collateralValueUSD := collateralValueUSD)
        && positions == old(positions)[id := r.value]
    {
      if id >= |positions| {
        return Err(NotFound);
      }
      var p := positions[id];
      StoredAt(id);
      var q := p.(healthFactor := HealthFactor(collateralValueUSD, p.borrowAmount),
                  collateralValueUSD := collateralValueUSD);
      var saved := Save(q);
      r := if saved then Ok(q) else Err(ValidationFailed);
    }

    /** `repayPosition`: only an active record can be repaid. An absent
        amount is stored as absent (no `min` check runs on it), but a
        registered user's `totalRepaid += undefined` is NaN, whose save
        fails after the record is already stored as repaid. */
    method RepayPosition(id: PositionId, repaymentTxHash: Option<string>, repaymentAmount: Option<real>,
                         now: int, users: UserRegistry)
      returns (r: Result<Position>)
      requires Valid() && users.Valid()
      modifies this, users.byAddress.Values
      ensures Valid() && users.Valid() && txIndex == old(txIndex)
      ensures id >= |old(positions)| ==> r == Err(NotFound)
      ensures id < |old(positions)| && old(positions)[id].status != Active ==> r == Err(NotActive)
      ensures id < |old(positions)| && old(positions)[id].status == Active && repaymentTxHash.None? ==>
        r == Err(TypeError)
      ensures r.Err? && !RepaidThenThrows(old(positions), id, repaymentTxHash, repaymentAmount, old(users.Stats())) ==>
        positions == old(positions) && users.Stats() == old(users.Stats())
      ensures RepaidThenThrows(old(positions), id, repaymentTxHash, repaymentAmount, old(users.Stats())) ==>
        && r == Err(ValidationFailed)
        && positions == old(positions)[id := RepaidRecord(old(positions)[id], repaymentTxHash.value, repaymentAmount, now)]
        && users.Stats() == old(users.Stats())
      ensures r.Ok? <==>
        && id < |old(positions)| && old(positions)[id].status == Active && repaymentTxHash.Some?
        && (repaymentAmount.Some? ==> repaymentAmount.value >= 0.0)
        && !(repaymentAmount.None? && old(positions)[id].userAddress in old(users.Stats()))
      ensures r.Ok? ==>
        && r.value == RepaidRecord(old(positions)[id], repaymentTxHash.value, repaymentAmount, now)
        && positions == old(positions)[id := r.value]
        && users.Stats() == (if repaymentAmount.Some?
                             then UserStatsAfterRepay(old(users.Stats()), r.value.userAddress, repaymentAmount.value)
                             else old(users.Stats()))
    {
      if id >= |positions| {
        return Err(NotFound);
      }
      var p := positions[id];
      if p.status != Active {
        return Err(NotActive);
      }
      if repaymentTxHash.None? {
        return Err(TypeError);
      }
      ToLowerIsLower(repaymentTxHash.value);
      var q := RepaidRecord(p, repaymentTxHash.value, repaymentAmount, now);
      StoredAt(id);
      assert SameIdentity(p, q) && LowerCased(q);
      assert SchemaValid(q) <==> (repaymentAmount.Some? ==> repaymentAmount.value >= 0.0);
      ghost var before := users.Stats();
      var saved := Save(q);
      assert users.Stats() == before;
      if !saved {
        return Err(ValidationFailed);
      }
      if repaymentAmount.None? {
        if q.userAddress in users.byAddress {
          return Err(ValidationFailed);
        }
        return Ok(q);
      }
      CountRepayment(users, q.userAddress, repaymentAmount.value);
      assert users.Stats() == UserStatsAfterRepay(before, q.userAddress, repaymentAmount.value);
      r := Ok(q);
    }

    /** `getPlatformStats` over the whole collection. */
    function GetPlatformStats(): (st: PlatformStats)
      reads this
      requires Valid()
      ensures st.liquidatableCount <= st.atRiskCount <= st.activePositions <= st.totalPositions == |positions|
      ensures st.atRiskCount == |FindAtRisk(positions)| && st.liquidatableCount == |FindLiquidatable(positions)|
      ensures st == Stats(positions)
      ensures st.totalBorrowed >= 0.0 && st.totalRepaid >= 0.0
    {
      AllSchemaValid();
      Stats(positions)
    }
  }

  /** `User.findOne({ address })` and, when found, `recordRepayment`. */
  method CountRepayment(users: UserRegistry, address: string, amount: real)
    requires users.Valid() && amount >= 0.0
    modifies users.byAddress.Values
    ensures users.Valid()
    ensures users.Stats() == UserStatsAfterRepay(old(users.Stats()), address, amount)
  {
    if address in users.byAddress {
      users.RecordRepayment(address, amount);
    }
  }

  /** The user statistics after `address` repays `amount`; an unknown
      address changes nothing. */
  function UserStatsAfterRepay(before: map<string, UserStats>, address: string, amount: real)
    : map<string, UserStats>
  {
    if address in before then before[address := AfterRepayment(before[address], amount)] else before
  }

  /** The record as `repayPosition` sets it: repaid now, with the
      lower-cased transaction hash and the amount as given. */
  function RepaidRecord(p: Position, txHash: string, amount: Option<real>, now: int): Position {
    p.(status := Repaid, repaidAt := Some(now), repaymentTxHash := Some(ToLower(txHash)),
       repaymentAmount := amount)
  }

  /** The input on which `repayPosition` stores the record and then throws:
      an active record, a hash, no amount, and a registered user, whose
      `recordRepayment(undefined)` makes `totalRepaid` NaN. */
  predicate RepaidThenThrows(ps: seq<Position>, id: PositionId, txHash: Option<string>,
                             amount: Option<real>, users: map<string, UserStats>) {
    id < |ps| && ps[id].status == Active && txHash.Some? && amount.None? && ps[id].userAddress in users
  }

  /** The user statistics after a position for `p.userAddress` is saved. */
  function UserStatsAfterCreate(before: map<string, UserStats>, p: Position): map<string, UserStats> {
    before[p.userAddress :=
      AfterIncrement(if p.userAddress in before then before[p.userAddress] else FreshStats, p.borrowAmount)]
  }

  /** The records of `address` that match the filters, newest first. */
  function QueryUser(s: seq<Position>, address: string, status: Option<string>, protocol: Option<string>)
    : (r: seq<Position>)
    ensures forall p :: p in r <==> p in s && MatchesQuery(p, address, status, protocol)
    ensures forall i, j :: 0 <= i < j < |r| ==> r[i].createdAt >= r[j].createdAt
    ensures forall p :: multiset(r)[p] == if MatchesQuery(p, address, status, protocol) then multiset(s)[p] else 0
  {
    var selected := Select(s, p => MatchesQuery(p, address, status, protocol));
    var sorted := SortBy(selected, NewestFirst);
    SortByKeepsMembers(selected, NewestFirst);
    SelectMultiplicity(s, p => MatchesQuery(p, address, status, protocol));
    assert forall i, j :: 0 <= i < j < |sorted| ==> NewestFirst(sorted[i]) <= NewestFirst(sorted[j]);
    sorted
  }
}

=== FILE: queries.dfy ===
/** The query shapes the store runs: a filter, a sort on one numeric key and a
    sum. Each is the meaning of a `find(filter).sort(key)` or an
    `aggregate($sum)` call, stated once and reused by every query. */
module Queries {

  /** `find(filter)`: the records satisfying `keep`, in store order. */
  function Select<T(!new)>(s: seq<T>, keep: T -> bool): (r: seq<T>)
    ensures forall x :: x in r <==> x in s && keep(x)
    ensures forall i :: 0 <= i < |r| ==> keep(r[i])
    ensures |r| <= |s|
  {
    if s == [] then []
    else (if keep(s[0]) then [s[0]] else []) + Select(s[1..], keep)
  }

  /** `find(filter)` returns each record that satisfies the filter exactly
      as often as the collection holds it, and no other record. */
  lemma {:induction false} SelectMultiplicity<T(!new)>(s: seq<T>, keep: T -> bool)
    ensures forall x :: multiset(Select(s, keep))[x] == if keep(x) then multiset(s)[x] else 0
  {
    if s != [] {
      SelectMultiplicity(s[1..], keep);
      assert s == [s[0]] + s[1..];
      assert Select(s, keep) == (if keep(s[0]) then [s[0]] else []) + Select(s[1..], keep);
    }
  }

  /** A filter that lets fewer records through selects a sub-multiset. */
  lemma {:induction false} SelectMonotone<T(!new)>(s: seq<T>, k1: T -> bool, k2: T -> bool)
    requires forall x :: k1(x) ==> k2(x)
    ensures multiset(Select(s, k1)) <= multiset(Select(s, k2))
    ensures |Select(s, k1)| <= |Select(s, k2)|
  {
    if s != [] {
      SelectMonotone(s[1..], k1, k2);
      assert Select(s, k1) == (if k1(s[0]) then [s[0]] else []) + Select(s[1..], k1);
      assert Select(s, k2) == (if k2(s[0]) then [s[0]] else []) + Select(s[1..], k2);
    }
    assert |Select(s, k1)| == |multiset(Select(s, k1))|;
    assert |Select(s, k2)| == |multiset(Select(s, k2))|;
  }

  /** `key` never decreases along `s`. */
  predicate SortedBy<T(!new)>(s: seq<T>, key: T -> real) {
    forall i, j :: 0 <= i < j < |s| ==> key(s[i]) <= key(s[j])
  }

  /** A record no greater than every record of a sorted list can lead it. */
  lemma ConsSorted<T(!new)>(h: T, t: seq<T>, key: T -> real)
    requires SortedBy(t, key)
    requires forall i :: 0 <= i < |t| ==> key(h) <= key(t[i])
    ensures SortedBy([h] + t, key)
  {
    var r := [h] + t;
    forall i, j | 0 <= i < j < |r|
      ensures key(r[i]) <= key(r[j])
    {
      assert r[j] == t[j - 1];
      if i > 0 {
        assert r[i] == t[i - 1];
      }
    }
  }

  /** A list holding `s` and `x` holds nothing else. */
  lemma InsertedFrom<T>(x: T, s: seq<T>, t: seq<T>)
    requires multiset(t) == multiset(s) + multiset{x}
    ensures forall i :: 0 <= i < |t| ==> t[i] == x || t[i] in s
  {
    forall i | 0 <= i < |t|
      ensures t[i] == x || t[i] in s
    {
      assert t[i] in multiset(t);
    }
  }

  function InsertBy<T(!new)>(x: T, s: seq<T>, key: T -> real): (r: seq<T>)
    requires SortedBy(s, key)
    ensures SortedBy(r, key)
    ensures multiset(r) == multiset(s) + multiset{x}
    ensures |r| == |s| + 1
  {
    if s == [] || key(x) <= key(s[0]) then
      ConsSorted(x, s, key);
      [x] + s
    else
      assert s == [s[0]] + s[1..];
      var t := InsertBy(x, s[1..], key);
      InsertedFrom(x, s[1..], t);
      assert forall i :: 0 <= i < |t| ==> key(s[0]) <= key(t[i]);
      ConsSorted(s[0], t, key);
      [s[0]] + t
  }

  /** `.sort({key: 1})`: the same records, ascending by `key`. */
  function SortBy<T(!new)>(s: seq<T>, key: T -> real): (r: seq<T>)
    ensures SortedBy(r, key)
    ensures multiset(r) == multiset(s)
    ensures |r| == |s|
  {
    if s == [] then []
    else
      assert s == [s[0]] + s[1..];
      InsertBy(s[0], SortBy(s[1..], key), key)
  }

  /** Sorting neither adds nor drops a record. */
  lemma SortByKeepsMembers<T(!new)>(s: seq<T>, key: T -> real)
    ensures forall x :: x in SortBy(s, key) <==> x in s
  {
    var r := SortBy(s, key);
    forall x
      ensures x in r <==> x in s
    {
      assert x in r <==> x in multiset(r);
      assert x in s <==> x in multiset(s);
    }
  }

  /** `$sum` of `f` over the records. */
  function Sum<T(!new)>(s: seq<T>, f: T -> real): real {
    if s == [] then 0.0 else f(s[0]) + Sum(s[1..], f)
  }

  lemma {:induction false} SumNonNegative<T(!new)>(s: seq<T>, f: T -> real)
    requires forall i :: 0 <= i < |s| ==> f(s[i]) >= 0.0
    ensures Sum(s, f) >= 0.0
  {
    if s != [] {
      SumNonNegative(s[1..], f);
    }
  }
}

=== FILE: user.dfy ===
/** A wallet user: lifetime position counters, borrowed and repaid totals and
    a connection count, each updated in place on the user's document. */
module UserModel {
  import opened Common

  /** The counters of one user document at one moment. */
  datatype UserStats = UserStats(
    totalPositions: int,
    activePositions: int,
    totalBorrowed: real,
    totalRepaid: real,
    connectionCount: int)

  /** A new document: every statistic at 0 and one connection. */
  const FreshStats: UserStats := UserStats(0, 0, 0.0, 0.0, 1)

  /** The schema's minimums, the connection that created the document, and
      that no more positions are active than were ever opened. */
  predicate CountersValid(s: UserStats) {
    && 0 <= s.activePositions <= s.totalPositions
    && s.totalBorrowed >= 0.0
    && s.totalRepaid >= 0.0
    && s.connectionCount >= 1
  }

  /** The counters after `recordConnection`. */
  function AfterConnection(s: UserStats): UserStats {
    s.(connectionCount := s.connectionCount + 1)
  }

  /** The counters after `incrementPositions(amount)`. */
  function AfterIncrement(s: UserStats, amount: real): UserStats {
    s.(totalPositions := s.totalPositions + 1,
       activePositions := s.activePositions + 1,
       totalBorrowed := s.totalBorrowed + amount)
  }

  /** The counters after `recordRepayment(amount)`: `Math.max(0, active - 1)`. */
  function AfterRepayment(s: UserStats, amount: real): UserStats {
    s.(activePositions := if s.activePositions - 1 > 0 then s.activePositions - 1 else 0,
       totalRepaid := s.totalRepaid + amount)
  }

  /** All three updates keep the counters valid, and none of them lets the
      active count go negative or pass the lifetime count. */
  lemma UpdatesKeepCountersValid(s: UserStats, amount: real)
    requires CountersValid(s) && amount >= 0.0
    ensures CountersValid(AfterConnection(s))
    ensures CountersValid(AfterIncrement(s, amount))
    ensures CountersValid(AfterRepayment(s, amount))
    ensures AfterRepayment(s, amount).activePositions <= s.activePositions
  {
  }

  class User {
    const address: string
    var totalPositions: int
    var activePositions: int
    var totalBorrowed: real
    var totalRepaid: real
    var connectionCount: int
    var firstConnectedAt: int
    var lastConnectedAt: int

    function Stats(): UserStats
      reads this
    {
      UserStats(totalPositions, activePositions, totalBorrowed, totalRepaid, connectionCount)
    }

    ghost predicate Valid()
      reads this
    {
      IsAddress(address) && IsLower(address) && CountersValid(Stats())
    }

    /** `new User({ address })`: the schema's defaults. */
    constructor (address: string, now: int)
      requires IsAddress(address) && IsLower(address)
      ensures Valid() && this.address == address
      ensures Stats() == FreshStats
      ensures firstConnectedAt == now && lastConnectedAt == now
    {
      this.address := address;
      totalPositions, activePositions := 0, 0;
      totalBorrowed, totalRepaid := 0.0, 0.0;
      connectionCount := 1;
      firstConnectedAt, lastConnectedAt := now, now;
    }

    /** `recordConnection`: one more connection, no statistic changes. */
    method RecordConnection(now: int)
      requires Valid()
      modifies this
      ensures Valid()
      ensures Stats() == AfterConnection(old(Stats()))
      ensures connectionCount == old(connectionCount) + 1
      ensures lastConnectedAt == now && firstConnectedAt == old(firstConnectedAt)
    {
      lastConnectedAt := now;
      connectionCount := connectionCount + 1;
    }

    /** `incrementPositions(amount)`: one more position, open and lifetime. */
    method IncrementPositions(amount: real)
      requires Valid() && amount >= 0.0
      modifies this
      ensures Valid()
      ensures Stats() == AfterIncrement(old(Stats()), amount)
      ensures totalPositions == old(totalPositions) + 1
      ensures activePositions == old(activePositions) + 1
      ensures firstConnectedAt == old(firstConnectedAt) && lastConnectedAt == old(lastConnectedAt)
    {
      totalPositions := totalPositions + 1;
      activePositions := activePositions + 1;
      totalBorrowed := totalBorrowed + amount;
    }

    /** `recordRepayment(amount)`: one fewer open position, floored at 0. */
    method RecordRepayment(amount: real)
      requires Valid() && amount >= 0.0
      modifies this
      ensures Valid()
      ensures Stats() == AfterRepayment(old(Stats()), amount)
      ensures activePositions == if old(activePositions) > 0 then old(activePositions) - 1 else 0
      ensures totalPositions == old(totalPositions) && totalBorrowed == old(totalBorrowed)
      ensures firstConnectedAt == old(firstConnectedAt) && lastConnectedAt == old(lastConnectedAt)
    {
      activePositions := if activePositions - 1 > 0 then activePositions - 1 else 0;
      totalRepaid := totalRepaid + amount;
    }
  }

  /** The users collection, keyed by lower-cased address (its unique index). */
  class UserRegistry {
    var byAddress: map<string, User>

    ghost predicate Valid()
      reads this, byAddress.Values
    {
      forall a :: a in byAddress ==> byAddress[a].address == a && byAddress[a].Valid()
    }

    /** The counters of every user, by address. */
    function Stats(): map<string, UserStats>
      reads this, byAddress.Values
    {
      map a | a in byAddress :: byAddress[a].Stats()
    }

    constructor ()
      ensures Valid() && byAddress == map[] && Stats() == map[]
    {
      byAddress := map[];
    }

    /** `User.create({ address })` for an address not yet registered. */
    method Create(address: string, now: int) returns (u: User)
      requires Valid() && address !in byAddress
      requires IsAddress(address) && IsLower(address)
      modifies this
      ensures Valid() && fresh(u)
      ensures byAddress == old(byAddress)[address := u]
      ensures Stats() == old(Stats())[address := FreshStats]
    {
      u := new User(address, now);
      byAddress := byAddress[address := u];
    }

    /** `recordConnection` on the user registered under `address`. */
    method Connect(address: string, now: int)
      requires Valid() && address in byAddress
      modifies byAddress[address]
      ensures Valid()
      ensures Stats() == old(Stats())[address := AfterConnection(old(Stats())[address])]
    {
      byAddress[address].RecordConnection(now);
    }

    /** `incrementPositions(amount)` on the user registered under `address`. */
    method IncrementPositions(address: string, amount: real)
      requires Valid() && address in byAddress && amount >= 0.0
      modifies byAddress[address]
      ensures Valid()
      ensures Stats() == old(Stats())[address := AfterIncrement(old(Stats())[address], amount)]
    {
      byAddress[address].IncrementPositions(amount);
    }

    /** `recordRepayment(amount)` on the user registered under `address`. */
    method RecordRepayment(address: string, amount: real)
      requires Valid() && address in byAddress && amount >= 0.0
      modifies byAddress[address]
      ensures Valid()
      ensures Stats() == old(Stats())[address := AfterRepayment(old(Stats())[address], amount)]
    {
      byAddress[address].RecordRepayment(amount);
    }
  }
}

=== FILE: user_controller.dfy ===
/** The user HTTP controller: a wallet connects, and is registered on its
    first connection or has its connection counted on later ones. */
module UserControllerModel {
  import opened Common
  import opened UserModel

  const RegisteredMessage: string := "User registered"
  const ReconnectedMessage: string := "User reconnected"

  /** The reply to a connection: the message and the user's counters. */
  datatype Connection = Connection(message: string, address: string, stats: UserStats)

  /** The message `connectUser` picks from the connection count. */
  function ConnectionMessage(connectionCount: int): (message: string)
    ensures message == RegisteredMessage <==> connectionCount == 1
    ensures message == RegisteredMessage || message == ReconnectedMessage
  {
    if connectionCount == 1 then RegisteredMessage else ReconnectedMessage
  }

  /** What a successful connection leaves in the registry for `address`:
      a fresh document, or one more connection on the existing one. */
  function StatsAfterConnect(before: map<string, UserStats>, address: string): (after: map<string, UserStats>)
    ensures address in after
    ensures address !in before ==> after[address] == FreshStats
    ensures address in before ==> after[address].connectionCount == before[address].connectionCount + 1
    ensures address in before ==> after[address] == AfterConnection(before[address])
    ensures forall a :: a != address ==> (a in after <==> a in before)
    ensures forall a :: a in before && a != address ==> after[a] == before[a]
  {
    before[address := if address in before then AfterConnection(before[address]) else FreshStats]
  }

  /** A user who connected before always gets "User reconnected": the
      stored count is at least 1, so the new one is at least 2. */
  lemma RegisteredOnlyOnce(before: map<string, UserStats>, address: string)
    requires forall a :: a in before ==> CountersValid(before[a])
    ensures ConnectionMessage(StatsAfterConnect(before, address)[address].connectionCount) == RegisteredMessage
        <==> address !in before
  {
  }

  /** `connectUser`: 400 for a missing or malformed address, with nothing
      written; otherwise the lower-cased address is looked up, and the user
      is either counted once more or created with one connection. */
  method ConnectUser(users: UserRegistry, address: Option<string>, now: int)
    returns (reply: Reply<Connection>)
    requires users.Valid()
    modifies users, users.byAddress.Values
    ensures users.Valid()
    ensures !Present(address) ==>
      reply == Failure(400, "Address is required") && users.Stats() == old(users.Stats())
    ensures Present(address) && !IsAddress(address.value) ==>
      reply == Failure(400, "Invalid Ethereum address format") && users.Stats() == old(users.Stats())
    ensures Present(address) && IsAddress(address.value) ==>
      var a := ToLower(address.value);
      && users.Stats() == StatsAfterConnect(old(users.Stats()), a)
      && reply.Success? && reply.status == 200
      && reply.data.address == a
      && reply.data.stats == users.Stats()[a]
      && (reply.data.message == RegisteredMessage <==> a !in old(users.Stats()))
      && reply.data.message == ConnectionMessage(users.Stats()[a].connectionCount)
  {
    if !Present(address) {
      return Failure(400, "Address is required");
    }
    if !IsAddress(address.value) {
      return Failure(400, "Invalid Ethereum address format");
    }
    var a := ToLower(address.value);
    ToLowerKeepsHex(address.value, 40);
    ToLowerIsLower(address.value);
    var user: User;
    if a in users.byAddress {
      user := users.byAddress[a];
      users.Connect(a, now);
    } else {
      user := users.Create(a, now);
    }
    RegisteredOnlyOnce(old(users.Stats()), a);
    reply := Success(200, Connection(ConnectionMessage(user.connectionCount), a, user.Stats()));
  }
}
